=== FILE: README.md ===
# Chalkboard: the event-notified sticky-note store, in Dafny

Chalkboard is a shared sticky-note board. Clients add, move and remove notes
on a board, and every open viewer of that board hears each change as a
server-sent event. The system exists in three variants: chalkboard.py, server.py
and server.go. This project models the core they share:

- the **board stores**:
  - chalkboard.py's `InMemoryBoardStore`, with one id counter, an ordered list
    of notes per board and IndexError on a missing id;
  - server.py's `InMemoryBoardStore`, which emits its own events and treats a
    missing id as a silent no-op;
  - server.go's map-backed `MemStore`, whose counter is a Go `int`. It is
    taken to be 64 bits wide (a 64-bit platform) and wraps.
- the **event hub**. Each board keeps a list of subscriber callbacks. A
  mutation is announced to a snapshot of that list. A callback that raises is
  unsubscribed, and the others are still called. This covers:
  - chalkboard.py's `EventStoreWrapper`;
  - server.py's `emit`, `subscribe` and `unsubscribe`;
  - the client registry and broadcast loop of server.go's `Ev.work`.
- the **readiness queue** of chalkboard.py's `DatabaseBoardStore`. Operations
  issued before a connection pool exists wait in order. Attaching a pool
  replays them, and later operations go to the pool at once. When the
  set-up interaction itself fails, for instance because the database cannot
  be opened, `main` attaches None instead of a pool, and every operation then
  waits for good. A failing CREATE TABLE does not count: it is caught inside
  the interaction, and the pool is attached normally.
- the **SQL plumbing** of `DatabaseBoardStore`. `formatRawQuery` fills
  `%(param)s` slots. `_gotOneRow` and `_gotStickies` turn result rows into
  note records.
- **event framing**: `sseMsg` and `mkevent` build the `event: …\ndata: …\n\n`
  frame. A reader for that frame is also modelled, so the round trip can be
  proved.

Everything is modelled as values:
- A store is a datatype, and an operation is a function returning the new
  store.
- A subscriber is a number.
- Which callbacks raise during one operation is given by a set `failing`.
- JSON serialisation is a function parameter `ser`.
- The pool is abstract. A dispatch records which operation went to which pool
  and which caller's placeholder (a Twisted Deferred) the result resolves.

Modules:
- `Wrappers`: `Option`, `Result`, and the Python exceptions raised.
- `Seqs`: `list.remove` and related list operations.
- `Notes`: the note record, events, and filters by id.
- `Fanout`: the subscriber registry and `emit`.
- `MemoryStore`: chalkboard.py's in-memory store.
- `EventStore`: chalkboard.py's event wrapper.
- `FeedStore`: server.py's store and feed start.
- `Framing`: the event frame.
- `Readiness`: the readiness queue.
- `Rows`: query formatting and rows.
- `GoStore`: server.go.

### Where the code departs from the documented behaviour

The model follows the code:

- **Board order.** The in-memory stores return a board's notes in list order.
  Update moves a note to the end. The documented behaviour is `updated_at` order,
  which only the database query (`order by updated`) gives.
- **Missing ids differ between variants:**
  - chalkboard.py's `InMemoryBoardStore` raises IndexError. The wrapper
    passes the error on and emits nothing.
  - chalkboard.py's `DatabaseBoardStore`, the store `main` wraps, behaves
    differently. Its `removeSticky` resolves with the id whether or not a row
    matched (chalkboard.py:158-162), so the wrapper announces `remove` for a
    note that was never on the board. Its `updateSticky` on a missing id
    fails with IndexError from `_gotOneRow`, after the UPDATE has run.
  - server.py ignores a missing id.
  - server.go's `UpdateSticky` inserts the sticky when its id is absent (an
    upsert), and `RmSticky` ignores an absent id.
- **Duplicate ids in server.py.** server.py handles every record carrying the
  id, not just the first.
- **What a remove event carries:**
  - chalkboard.py's wrapper emits the removed *id*;
  - server.py emits the removed *record*;
  - server.go emits the id as a quoted string.
- **Closing a feed.** Neither Python feed unsubscribes when its connection
  closes. A dead feed leaves only when its write raises during a later emit.
- **Deferred resolution.** Every queued operation's placeholder is documented to
  resolve with that operation's result. The code binds the placeholder late
  (see Findings).
- **server.go ids.** A new subscription replaces any client already
  registered under the same remote address, and the replaced client is never
  signalled. The first id is 1. On a 64-bit platform, after the top of the
  range, ids wrap to negative values.

## Model

| member | source | states |
|---|---|---|
| Seqs.RemoveFirst | chalkboard.py:250 | `list.remove(x)` removes exactly one copy of `x`, the first one. The rest stays in order, and the multiset loses one `x`. |
| Fanout.Subscribe | chalkboard.py:204-205 | Subscribing appends the callback to the end of its board's list and leaves every other board alone. |
| Fanout.Unsubscribe | chalkboard.py:208-209 | Succeeds exactly when the callback is subscribed, and then removes its first entry. Otherwise ValueError. Other boards are untouched. |
| Fanout.Emit | chalkboard.py:195-201 | Every subscriber in the snapshot is called once, in subscription order, with the event, and it is recorded whether it raised. Other boards are untouched. |
| Fanout.LiveKeepsSurvivors | chalkboard.py:196-201 | Loop invariant of `emit`. Removing each raising callback from the live list, not the snapshot, leaves exactly the non-raising ones in order. |
| Fanout.EmitDropsExactlyFailing | server.py:67-73 | After `emit`, the board keeps exactly the subscribers whose callbacks did not raise, in order. |
| Fanout.SurvivorsIdempotent | server.py:67-73 | A second emission with the same failures drops nobody. |
| Fanout.Survivors | server.py:68-73 | Reference filter. A subscriber survives iff it was subscribed and did not raise. |
| MemoryStore.Init | chalkboard.py:218-224 | A new store has no note on any board, has handed out no id, and satisfies the store invariant. |
| MemoryStore.NextId | chalkboard.py:227-229 | Bumps the counter and returns its new value. On a well-formed store that id is on no board. |
| MemoryStore.AddSticky | chalkboard.py:236-245 | Appends a record with the fresh id and the given fields and returns it. Only that board changes. The counter moves by one. |
| MemoryStore.RemoveSticky | chalkboard.py:248-251 | Succeeds iff the board holds the id, otherwise IndexError. Drops the first record with that id and returns the id. Other boards are unchanged. |
| MemoryStore.UpdateSticky | chalkboard.py:254-263 | Succeeds iff the board holds the id, otherwise IndexError. The first match, restyled, moves to the end. The other records keep their order, and the length is kept. |
| MemoryStore.ChangedInPlaceIsFirst | chalkboard.py:255-261 | Removing the record changed in place hits its own slot, because no earlier record carries its id. |
| MemoryStore.AddKeepsWf | chalkboard.py:236-245 | Adding keeps the invariant: ids are distinct within and across boards and never above the counter. |
| MemoryStore.RemoveKeepsWf | chalkboard.py:248-251 | Removal keeps the store invariant. |
| MemoryStore.UpdateKeepsWf | chalkboard.py:254-263 | Update keeps the store invariant. |
| MemoryStore.RemoveIsFilter | chalkboard.py:248-251 | On a well-formed store, removal equals filtering the id out, and the board shrinks by one. |
| MemoryStore.UpdateIsMoveToEnd | chalkboard.py:254-263 | On a well-formed store, update equals: the others in order, then the restyled record. |
| MemoryStore.RunIssuesFreshIds | chalkboard.py:227-245 | Over any run of calls, the ids handed out increase strictly and lie above the starting counter and at most at the final one. |
| MemoryStore.RunKeepsWf | chalkboard.py:227-263 | Every run of calls keeps the store invariant. |
| EventStore.GetStickies | chalkboard.py:176-177 | Reading a board emits nothing and hands back the store's list unchanged. On a well-formed store the notes carry distinct ids, each between 1 and the counter. |
| EventStore.EmitOne | chalkboard.py:212-214 | Emits to exactly the board's subscribers with the record, each call recording whether it raised, and returns the record unchanged. The store is untouched. The board keeps exactly the subscribers that did not raise, and other boards are untouched. |
| EventStore.AddSticky | chalkboard.py:180-182 | Returns the store's new record unchanged and announces it as `add` to every subscriber of the board, in order, recording which raised. Afterwards the board keeps exactly the subscribers that did not raise, and other boards' subscribers are untouched. |
| EventStore.UpdateSticky | chalkboard.py:185-187 | Fails exactly when the store fails, with the same error, and then emits nothing. Otherwise returns the store's record and announces `update` to every subscriber of the board, recording which raised; the board keeps exactly the non-raising subscribers and other boards are untouched. |
| EventStore.RemoveSticky | chalkboard.py:190-192 | Fails exactly when the store fails, and then emits nothing. Otherwise returns the id and announces `remove` with the id to every subscriber of the board, recording which raised; the board keeps exactly the non-raising subscribers and other boards are untouched. |
| EventStore.MissingNoteIsSilent | chalkboard.py:190-192 | A mutation on a missing note fails with IndexError and emits nothing. |
| EventStore.BoardsAreIsolated | chalkboard.py:195-198 | Only the mutated board's subscribers are called, and other boards' lists are untouched. |
| EventStore.DemoSession | chalkboard.py:180-263 | Add, update and remove of one note on an empty board: results: the new record with id 1, the restyled record, the id. One subscriber hears each once, and the board ends empty. |
| FeedStore.AddSticky | server.py:34-44 | Appends a record with the next id, and the counter moves by one. Emits `add` with it exactly once: each subscriber of the board is called once, in order. Afterwards the board keeps exactly the subscribers that did not raise. Other boards and their subscribers are untouched. |
| FeedStore.AddOnWellFormed | server.py:34-44 | With distinct ids, the new record's id is not yet on the board, the board's ids stay distinct, and the store invariant holds. |
| FeedStore.RemoveSticky | server.py:47-51 | The board becomes the records without the id, one `remove` per match in order. The calls are those of the emissions in turn: every subscriber hears the first event, only the non-raising ones the rest. When a match existed, the board keeps exactly the non-raising subscribers. A missing id changes nothing and emits nothing. |
| FeedStore.UpdateSticky | server.py:54-64 | The board becomes the non-matching records, then the restyled matches, in order, with one `update` per match. The calls are those of the emissions in turn, and when a match existed the board keeps exactly the non-raising subscribers. A missing id emits nothing. |
| FeedStore.EmitEach | server.py:49-73 | The calls of a loop's emissions follow from the starting subscriber list alone: all hear the first event, and only those that did not raise hear the later ones. After at least one event the board keeps exactly the non-raising subscribers. No events change nothing, and other boards are untouched. |
| FeedStore.CallsAfterFirst | server.py:67-73 | After the first event, every later event of the loop reaches the same subscribers: the non-raising ones of the first. This follows from the failure set being fixed for the whole operation, and it matters only with duplicate ids, since with distinct ids the loop emits at most once. |
| FeedStore.StableCalls | server.py:67-73 | On subscribers none of whom raises, every event reaches every one of them. |
| FeedStore.RemoveEachDropsAll | server.py:48-50 | Removing the matches one by one leaves exactly the records without the id. |
| FeedStore.UpdateEachMovesAll | server.py:55-63 | Changing, removing and re-appending each match keeps the others in order and puts the restyled matches after them. |
| FeedStore.RemoveOnWellFormed | server.py:47-51 | With distinct ids, removal emits at most once, drops the one match and keeps the invariant. |
| FeedStore.UpdateMovesOne | server.py:54-64 | With distinct ids and the id present, update emits one `update` and moves the restyled record to the end. |
| FeedStore.UpdateKeepsWf | server.py:54-64 | Update keeps the store invariant. |
| FeedStore.UpdateOnWellFormed | server.py:54-64 | With distinct ids, update emits at most once, moves the one record to the end, keeps the length and the invariant. |
| FeedStore.Replay | server.py:147-149 | A feed is sent one `add` frame per existing note, in board order, each the frame `sseMsg` builds for that note. |
| FeedStore.OpenFeed | server.py:144-151 | A feed writes `hello`, then one `add` per existing note in board order, and then is subscribed last on its board. |
| FeedStore.OpenFeedThenHearsAdd | server.py:144-150 | A healthy feed is the last one called for the next note added to its board, and it stays subscribed. |
| Framing.FrameRoundTrip | server.py:159-162 | A frame whose name and data are each one line reads back as that name and data. |
| Framing.ParseFrameSound | chalkboard.py:402-405 | Whatever the frame reader accepts is exactly the frame of the fields it returns. |
| Framing.SseMsg | chalkboard.py:402-405 | `sseMsg` yields a frame that reads back as the event name and the serialised data. |
| Framing.MkEvent | server.go:80-83 | `mkevent` yields a frame that reads back as its event name and data. |
| Readiness.RunPending | chalkboard.py:81-88 | Without a pool, or with nothing pending, it changes nothing. Otherwise it empties `pending` and appends, in order, one dispatch per pending entry: a call on the attached pool with the entry's operation, resolving the entry's own placeholder. |
| Readiness.Enqueue | chalkboard.py:90-94 | Hands out the next placeholder. Before attachment the operation waits at the end of `pending`. After attachment it is dispatched at once. |
| Readiness.RunQueryOp | chalkboard.py:97-98 | Hands out the next placeholder for a `runQuery` call with the same arguments. It waits last before attachment, and goes to the pool at once after. |
| Readiness.RunInteractionOp | chalkboard.py:101-102 | Hands out the next placeholder for a `runInteraction` call with the same arguments. It waits last before attachment, and goes to the pool at once after. |
| Readiness.AttachPool | chalkboard.py:76-78 | Attaching sets the pool. A real pool gets everything pending replayed in order, and nothing is left pending. None, which `main` passes when the set-up interaction itself fails, replays nothing and keeps everything pending. |
| Readiness.ReattachDoesNotReplay | chalkboard.py:76-78 | A second attach only swaps the pool and replays nothing again. |
| Readiness.StepKeepsOrder | chalkboard.py:76-94 | Each call keeps the queue invariant and adds exactly the submitted operation to the taken operations. |
| Readiness.ExecKeepsOrder | chalkboard.py:76-102 | Over any run, the operations taken are the earlier ones followed by the submitted ones, in submission order. |
| Readiness.RunFromInit | chalkboard.py:71-102 | From a new store, the k-th dispatch carries the k-th submitted operation and resolves placeholder k. Once attached, nothing waits. |
| Readiness.DetachedNeverDispatches | chalkboard.py:80-82 | Without a pool, and with no real pool attached, any run sends nothing to a pool. The submitted operations wait in order behind those already waiting. |
| Readiness.FailedSetupStalls | chalkboard.py:45 | After `attachPool(None)`, which the set-up chain makes when the set-up interaction itself fails (the database cannot be opened, or the commit fails), no operation is ever sent until a real pool is attached. |
| Readiness.AsWrittenAgreesOnOne | chalkboard.py:84-86 | With at most one entry pending, the code as written behaves as intended. |
| Readiness.LateBindingLosesFirstResult | chalkboard.py:84-86 | Two queries queued before attach: as written both resolve the second placeholder, while the intended replay resolves each. |
| Rows.Format | chalkboard.py:105-106 | Formatting fails only with the formatting error. Its output holds only characters of the query and of the marker. |
| Rows.FormatPlain | chalkboard.py:105-106 | A query without `%` is formatted to itself. |
| Rows.TrailingPercentFails | chalkboard.py:105-106 | A lone `%` at the end of plain text is a formatting error. |
| Rows.FillTemplate | chalkboard.py:105-106 | Text joined by `%(param)s` slots becomes the same text joined by the driver's marker. |
| Rows.FormatRawQuery | chalkboard.py:105-106 | A template with plain literal parts formats to its parts joined by the marker. |
| Rows.EscapeRoundTrip | chalkboard.py:105-106 | Doubling every `%` is undone by the formatter, whatever the marker. |
| Rows.StoreQueriesFill | chalkboard.py:109-162 | The five statements format without error, each with as many markers as its argument tuple. |
| Rows.GotOneRow | chalkboard.py:137-145 | Succeeds iff there is a first row of six columns. No row gives IndexError, and another width gives ValueError. |
| Rows.GotStickies | chalkboard.py:122-123 | Succeeds iff every row has six columns, then one record per row in order, each as `_gotOneRow([row])`. |
| Rows.RowRoundTrip | chalkboard.py:137-145 | The stored row of a sticky reads back as that sticky, whatever the board and time stamp. |
| Rows.StickiesRoundTrip | chalkboard.py:109-123 | A board's stored rows read back as its stickies, in row order. |
| GoStore.Inc | server.go:41 | On a 64-bit platform, `+= 1` on a Go int gives the 64-bit value congruent to `x + 1` modulo 2^64. |
| GoStore.IncCases | server.go:41 | The increment is `x + 1` below the top and the minimum at the top. It is the only 64-bit value congruent to `x + 1`. |
| GoStore.CongruentInt64 | server.go:41 | Two 64-bit values congruent modulo 2^64 are equal. |
| GoStore.Init | server.go:212 | The store `main` creates holds no sticky, files every sticky under its own id, and starts the counter at 1. |
| GoStore.AddSticky | server.go:38-43 | The sticky takes the counter as id and is filed under it, replacing what was there. Other entries stay, and the counter moves on with wrap-around. |
| GoStore.RmSticky | server.go:45-47 | Deletes the key if present and otherwise changes nothing. |
| GoStore.UpdateSticky | server.go:49-51 | Files the sticky under its own id, adding it when absent. Other entries stay. |
| GoStore.OperationsKeepKeys | server.go:38-51 | All three operations keep every sticky filed under its own id. |
| GoStore.AddThenRemove | server.go:38-47 | Removing the just-added sticky restores the map when the counter was unused. |
| GoStore.UpdateThenRemove | server.go:45-51 | Removing after an update is removing straight away. |
| GoStore.UpdateIdempotent | server.go:49-51 | Updating twice with the same sticky is updating once. |
| GoStore.AddAllIssuesRange | server.go:38-43 | Below the top, consecutive adds take consecutive ids and file each note under its own id. Nothing earlier is touched. |
| GoStore.FreshIdsFromInit | server.go:212 | From the initial store, the i-th add gets id i+1 and the filed ids are exactly 1 to n. |
| GoStore.RunIssuesConsecutive | server.go:38-51 | Over any mix of adds, removals and updates, while the counter stays below the top, the adds get consecutive ids from the counter, one per add. The counter ends that many higher. |
| GoStore.FreshIdsInAnyRun | server.go:38-51 | From the initial store, with fewer adds than the top, the adds of any mix of calls get ids 1, 2, ... in order. No id is issued twice. |
| GoStore.UpsertThenAddReplaces | server.go:38-51 | An update under an id not yet issued is silently replaced by the add that reaches it. |
| GoStore.CounterWraps | server.go:38-43 | At the top of the range the next id is the maximum and the counter wraps to the minimum. |
| GoStore.Register | server.go:95-96 | A subscription is filed under its address and reports the client it displaced. |
| GoStore.DisplacedUnreachable | server.go:95-96 | A displaced client is no longer in the registry, so no broadcast reaches it. |
| GoStore.Broadcast | server.go:104-120 | Every client is written exactly once. The dropped list is exactly the clients whose write failed. Afterwards the registry is exactly the others. |
| GoStore.DeleteAll | server.go:117-119 | Deletes exactly the listed addresses. Every other entry stays unchanged. |
| GoStore.Survive | server.go:107-119 | Reference filter: keeps exactly the clients not failing, with their entries. |
| GoStore.Replay | server.go:98-103 | A new client is sent one `add` frame for every stored sticky, each exactly once. |
| GoStore.OpenStream | server.go:193-199 | The stream starts with `hello`, then the replay of every stored sticky, and the client is registered. |

## Left out

- HTTP handling is not modelled. This covers:
  - routing, form parsing, authentication and templates;
  - response headers and JSON encoding (a parameter `ser`, or `json.Marshal` as a function);
  - logging and Python 2 `print`.
- The database itself is not modelled: SQL execution, `lastrowid`, the `getSticky` read-back chain and the table set-up. So `DatabaseBoardStore`'s missing-id behaviour is not modelled either: a remove that matches no row succeeds and is announced, and an update fails only after the UPDATE has run.
- Twisted Deferred mechanics (`maybeDeferred`, callback chains, errbacks) are not modelled. A failure is a `Failure` result.
- Goroutines, channels and the blocking `done` handshake are not modelled. Go's `Ev.work` is modelled one event at a time.
- Fanout.Emit: a callback's failure is an input set, not the effect of writing to a closed connection.
- FeedStore.EmitEach: the failure set is one per operation. A callback that succeeds on one `emit` of server.py's loop and raises on the next is not modelled; with distinct ids the loop emits at most once.
- Fanout.Emit: the ValueError that `unsubscribe` could raise inside `emit` cannot occur here, because the raising callback is still in the live list.
- FeedStore.Replay: the frames are the values written; write errors during replay are not modelled.
- GoStore.Replay: the result is the frames `mkevent` builds, not the bytes written. server.go passes each frame to `Fprintf` as a format string, so a note holding `%` is written mangled. Write errors are not modelled either.
- GoStore.OpenStream: the `hello` frame and the replayed frames are the frames built, not the bytes `Fprintf` writes from them (see GoStore.Replay).
- GoStore.Broadcast: the frame written is not modelled. server.go passes it to `Fprintf` as a format string, so a `%` in a note would be mangled.
- GoStore.Replay: Go's map order is unspecified. The replay order is any order covering every sticky once, not a particular one.
- FeedStore.UpdateSticky: records are values. The dictionary an event carries is the same object the board holds, and later in-place updates change events already queued; that aliasing is not modelled.
- Rows.Format: only `%%` and `%(param)s` are modelled, and every other use of `%` is the one error FormatError. In Python some of these succeed: other conversions and flags on the key, such as `%(param)r`, `%(param)5s` or `%(param)-s`, format the marker, and a bare `%s` formats the whole dict. Others raise KeyError, TypeError or ValueError. The statements the store issues use only `%(param)s`.
- Rows.StoreQueriesFill: the statements are written with their whitespace folded.
- Rows.GotOneRow: the dictionary is a record of four columns. Values that are not sequences (a TypeError on unpacking) are not modelled.
- Readiness.Enqueue: the pool call itself and its result are not modelled; a dispatch records the call and the placeholder the result will resolve.
- `getReadySqlite` and `getReadyPostgres` are not modelled. They only create the pool that `attachPool` receives.
- chalkboard.py's web resources are not modelled. Its `StickyFeed` is not modelled either. server.py's feed start (`FeedStore.OpenFeed`) reads and subscribes in one step, and it does not stand for `StickyFeed`.
- chalkboard.py's `StickyFeed` (chalkboard.py:384-393) writes `hello` and then reads the board asynchronously through the wrapper and, with a database store, the pool. It subscribes only when the read's callback runs. A mutation that lands between the query and that callback is neither replayed nor announced to the new feed. That window is not modelled.
- GoStore.Inc: assumes a 64-bit platform. Go's `int` is 32 bits wide on a 32-bit build, where the counter would wrap at 2^31 - 1; that case is not modelled.
- GoStore.Register: the registration log line and the `flush` of each replayed frame are not modelled.

## Findings

| source | as written | input that shows it | evidently intended | confidence | as-written member | corrected member |
|---|---|---|---|---|---|---|
| chalkboard.py:84-86 | The callback `lambda x: d.callback(x)` reads the loop variable `d` when the pool's result arrives. With a pool whose results come later, every replayed operation resolves the last pending placeholder. | Two `runQuery` calls before `attachPool`: both results go to the second caller's Deferred. The first caller's Deferred never fires, and the second is called twice (an AlreadyCalledError in Twisted). | Each replayed operation resolves its own caller's placeholder, for example by binding `d` as a default argument. | not executed; Twisted's ConnectionPool returns results asynchronously | Readiness.LateBindingLosesFirstResult | Readiness.RunFromInit |

=== FILE: event_store.dfy ===
/** chalkboard.py's EventStoreWrapper around the in-memory store: every
    mutation that succeeds is announced to the board's subscribers, after the
    store call, and the store's result is handed back unchanged. */
module EventStore {
  import opened Wrappers
  import opened Notes
  import Fanout
  import MemoryStore

  /** The wrapped store and the wrapper's `subscriptions`. */
  datatype Hub = Hub(store: MemoryStore.Store, subs: Fanout.Registry)

  /** A wrapper call that succeeded: the hub after it, the subscriber calls
      made by its emission, and the value handed back. */
  datatype Outcome<+T> = Outcome(hub: Hub, calls: seq<Fanout.Call>, value: T)

  /** The subscriber calls reach exactly the board's subscribers, in order,
      each with `ev`. */
  ghost predicate Announced(h: Hub, b: BoardId, calls: seq<Fanout.Call>, ev: Event) {
    && |calls| == |Fanout.Subs(h.subs, b)|
    && forall i :: 0 <= i < |calls| ==> calls[i].sub == Fanout.Subs(h.subs, b)[i] && calls[i].event == ev
  }

  /** `emitOne(record, board_id, action)`: emit, then return the record. */
  function EmitOne(h: Hub, record: Payload, b: BoardId, action: Action, failing: set<Fanout.SubId>): (r: Outcome<Payload>)
    ensures r.value == record
    ensures r.hub.store == h.store
    ensures Announced(h, b, r.calls, Event(action, record))
    ensures r.calls == Fanout.Calls(Fanout.Subs(h.subs, b), Event(action, record), failing)
    ensures Fanout.Subs(r.hub.subs, b) == Fanout.Survivors(Fanout.Subs(h.subs, b), failing)
    ensures forall c :: c != b ==> Fanout.Subs(r.hub.subs, c) == Fanout.Subs(h.subs, c)
  {
    var e := Fanout.Emit(h.subs, b, Event(action, record), failing);
    Fanout.EmitDropsExactlyFailing(h.subs, b, Event(action, record), failing);
    Outcome(h.(subs := e.reg), e.calls, record)
  }

  /** `getStickies` passes straight through: nothing is emitted and the
      store's list comes back as is. On a well-formed store the notes carry
      distinct ids, all of them handed out already. */
  function GetStickies(h: Hub, b: BoardId): (r: seq<Sticky>)
    ensures r == MemoryStore.Board(h.store, b)
    ensures MemoryStore.Wf(h.store) ==> DistinctIds(r)
    ensures MemoryStore.Wf(h.store) ==> forall i :: 0 <= i < |r| ==> 1 <= r[i].id <= h.store.lastId
  {
    var r := MemoryStore.Board(h.store, b);
    assert forall i :: 0 <= i < |r| ==> r[i].id in IdSet(r);
    r
  }

  /** `addSticky`: the store's new record, announced as `add`; the board's
      subscribers that raised are dropped and no other board is touched. */
  function AddSticky(h: Hub, b: BoardId, note: string, x: int, y: int, failing: set<Fanout.SubId>): (r: Outcome<Sticky>)
    ensures var a := MemoryStore.AddSticky(h.store, b, note, x, y);
      && r.value == a.sticky
      && r.hub.store == a.store
      && Announced(h, b, r.calls, Event(Add, Record(a.sticky)))
      && r.calls == Fanout.Calls(Fanout.Subs(h.subs, b), Event(Add, Record(a.sticky)), failing)
      && Fanout.Subs(r.hub.subs, b) == Fanout.Survivors(Fanout.Subs(h.subs, b), failing)
      && forall c :: c != b ==> Fanout.Subs(r.hub.subs, c) == Fanout.Subs(h.subs, c)
  {
    var a := MemoryStore.AddSticky(h.store, b, note, x, y);
    var e := EmitOne(h.(store := a.store), Record(a.sticky), b, Add, failing);
    Outcome(e.hub, e.calls, a.sticky)
  }

  /** `updateSticky`: a store failure propagates and nothing is emitted;
      otherwise the updated record is announced as `update`. */
  function UpdateSticky(h: Hub, b: BoardId, id: int, note: string, x: int, y: int, failing: set<Fanout.SubId>): (r: Result<Outcome<Sticky>>)
    ensures var u := MemoryStore.UpdateSticky(h.store, b, id, note, x, y);
      && (r.Success? <==> u.Success?)
      && (r.Failure? ==> r.error == u.error)
      && (r.Success? ==>
            && r.value.value == u.value.sticky
            && r.value.hub.store == u.value.store
            && Announced(h, b, r.value.calls, Event(Update, Record(u.value.sticky)))
            && r.value.calls == Fanout.Calls(Fanout.Subs(h.subs, b), Event(Update, Record(u.value.sticky)), failing)
            && Fanout.Subs(r.value.hub.subs, b) == Fanout.Survivors(Fanout.Subs(h.subs, b), failing)
            && forall c :: c != b ==> Fanout.Subs(r.value.hub.subs, c) == Fanout.Subs(h.subs, c))
  {
    match MemoryStore.UpdateSticky(h.store, b, id, note, x, y)
    case Failure(err) => Failure(err)
    case Success(u) =>
      var e := EmitOne(h.(store := u.store), Record(u.sticky), b, Update, failing);
      Success(Outcome(e.hub, e.calls, u.sticky))
  }

  /** `removeSticky`: a store failure propagates and nothing is emitted;
      otherwise the removed id is announced as `remove` and returned. */
  function RemoveSticky(h: Hub, b: BoardId, id: int, failing: set<Fanout.SubId>): (r: Result<Outcome<int>>)
    ensures var d := MemoryStore.RemoveSticky(h.store, b, id);
      && (r.Success? <==> d.Success?)
      && (r.Failure? ==> r.error == d.error)
      && (r.Success? ==>
            && r.value.value == id
            && r.value.hub.store == d.value.store
            && Announced(h, b, r.value.calls, Event(Remove, StickyId(id)))
            && r.value.calls == Fanout.Calls(Fanout.Subs(h.subs, b), Event(Remove, StickyId(id)), failing)
            && Fanout.Subs(r.value.hub.subs, b) == Fanout.Survivors(Fanout.Subs(h.subs, b), failing)
            && forall c :: c != b ==> Fanout.Subs(r.value.hub.subs, c) == Fanout.Subs(h.subs, c))
  {
    match MemoryStore.RemoveSticky(h.store, b, id)
    case Failure(err) => Failure(err)
    case Success(d) =>
      var e := EmitOne(h.(store := d.store), StickyId(d.id), b, Remove, failing);
      Success(Outcome(e.hub, e.calls, d.id))
  }

  /** A mutation on a missing note fails with IndexError and so emits nothing. */
  lemma MissingNoteIsSilent(h: Hub, b: BoardId, id: int, note: string, x: int, y: int, failing: set<Fanout.SubId>)
    requires !HasId(MemoryStore.Board(h.store, b), id)
    ensures UpdateSticky(h, b, id, note, x, y, failing) == Failure(IndexError)
    ensures RemoveSticky(h, b, id, failing) == Failure(IndexError)
  {
  }

  /** Subscribers of one board never hear about another board's changes. */
  lemma BoardsAreIsolated(h: Hub, a: BoardId, b: BoardId, note: string, x: int, y: int, failing: set<Fanout.SubId>)
    requires a != b
    ensures var r := AddSticky(h, a, note, x, y, failing);
      && Fanout.Subs(r.hub.subs, b) == Fanout.Subs(h.subs, b)
      && forall i :: 0 <= i < |r.calls| ==> r.calls[i].sub in Fanout.Subs(h.subs, a)
  {
  }

  /** A board starts empty with one healthy subscriber: add, update and
      remove of one note return the record, the record and the id, the
      subscriber hears each change once, and the board ends empty. */
  lemma DemoSession(sub: Fanout.SubId)
    ensures var h := Hub(MemoryStore.Init(), Fanout.Subscribe(map[], "demo", sub));
      var a := AddSticky(h, "demo", "hi", 10, 20, {});
      var u := UpdateSticky(a.hub, "demo", 1, "bye", 15, 25, {});
      && a.value == Sticky(1, "hi", 10, 20)
      && a.calls == [Fanout.Call(sub, Event(Add, Record(Sticky(1, "hi", 10, 20))), false)]
      && u.Success? && u.value.value == Sticky(1, "bye", 15, 25)
      && u.value.calls == [Fanout.Call(sub, Event(Update, Record(Sticky(1, "bye", 15, 25))), false)]
      && var d := RemoveSticky(u.value.hub, "demo", 1, {});
      && d.Success? && d.value.value == 1
      && d.value.calls == [Fanout.Call(sub, Event(Remove, StickyId(1)), false)]
      && GetStickies(d.value.hub, "demo") == []
  {
    var h := Hub(MemoryStore.Init(), Fanout.Subscribe(map[], "demo", sub));
    var a := AddSticky(h, "demo", "hi", 10, 20, {});
    assert MemoryStore.Board(a.hub.store, "demo") == [Sticky(1, "hi", 10, 20)];
    assert Fanout.Subs(a.hub.subs, "demo") == [sub];
    assert HasId([Sticky(1, "hi", 10, 20)], 1) by {
      assert [Sticky(1, "hi", 10, 20)][0].id == 1;
    }
    assert FirstIndex([Sticky(1, "hi", 10, 20)], 1) == 0;
    var u := UpdateSticky(a.hub, "demo", 1, "bye", 15, 25, {});
    assert MemoryStore.Board(u.value.hub.store, "demo") == [Sticky(1, "bye", 15, 25)];
    assert Fanout.Subs(u.value.hub.subs, "demo") == [sub];
    assert HasId([Sticky(1, "bye", 15, 25)], 1) by {
      assert [Sticky(1, "bye", 15, 25)][0].id == 1;
    }
    assert FirstIndex([Sticky(1, "bye", 15, 25)], 1) == 0;
  }
}

=== FILE: fanout.dfy ===
/** The per-board subscriber registry and its fan-out (`emit`, `subscribe`,
    `unsubscribe`), written identically in chalkboard.py's EventStoreWrapper
    and in server.py's InMemoryBoardStore.

    A subscriber is a handle; whether its callback raises when it is called
    is decided by the caller-supplied set `failing`, which stands for the
    outcome of the callbacks during one operation. */
module Fanout {
  import opened Wrappers
  import opened Notes
  import Seqs

  type SubId = nat

  /** Board id to the board's subscribers in subscription order. */
  type Registry = map<BoardId, seq<SubId>>

  /** One callback invocation: who was called, with what, and whether it raised. */
  datatype Call = Call(sub: SubId, event: Event, raised: bool)

  /** The result of one `emit`: the calls made, in order, and the registry after. */
  datatype Emission = Emission(calls: seq<Call>, reg: Registry)

  /** The subscribers of `b`; a board never subscribed to has none. */
  function Subs(reg: Registry, b: BoardId): seq<SubId> {
    if b in reg then reg[b] else []
  }

  /** `subscribe`: append to the end of the board's list. */
  function Subscribe(reg: Registry, b: BoardId, s: SubId): (r: Registry)
    ensures Subs(r, b) == Subs(reg, b) + [s]
    ensures forall c :: c != b ==> Subs(r, c) == Subs(reg, c)
  {
    reg[b := Subs(reg, b) + [s]]
  }

  /** `unsubscribe`: `list.remove`, which raises ValueError when `s` is not subscribed. */
  function Unsubscribe(reg: Registry, b: BoardId, s: SubId): (r: Result<Registry>)
    ensures r.Success? <==> s in Subs(reg, b)
    ensures r.Failure? ==> r.error == ValueError
    ensures r.Success? ==>
      && Subs(r.value, b) == Seqs.RemoveAt(Subs(reg, b), Seqs.IndexOf(Subs(reg, b), s))
      && multiset(Subs(r.value, b)) == multiset(Subs(reg, b)) - multiset{s}
    ensures r.Success? ==> forall c :: c != b ==> Subs(r.value, c) == Subs(reg, c)
  {
    if s in Subs(reg, b) then Success(reg[b := Seqs.RemoveFirst(Subs(reg, b), s)])
    else Failure(ValueError)
  }

  /** Reference definition: the subscribers whose callbacks do not raise, in order. */
  function Survivors(subs: seq<SubId>, failing: set<SubId>): (r: seq<SubId>)
    ensures forall x :: x in r <==> x in subs && x !in failing
    ensures |r| <= |subs|
  {
    if subs == [] then []
    else (if subs[0] in failing then [] else [subs[0]]) + Survivors(subs[1..], failing)
  }

  /** The calls `emit` makes while walking the snapshot `rest`: each
      subscriber once, in order, noting whether its callback raised. */
  function Calls(rest: seq<SubId>, ev: Event, failing: set<SubId>): (r: seq<Call>)
    ensures |r| == |rest|
    ensures forall i :: 0 <= i < |rest| ==> r[i] == Call(rest[i], ev, rest[i] in failing)
  {
    if rest == [] then []
    else [Call(rest[0], ev, rest[0] in failing)] + Calls(rest[1..], ev, failing)
  }

  /** The live list left by walking the snapshot `rest`: every subscriber
      that raised is removed (first occurrence, `list.remove`) from the live
      list, not from the snapshot. The live list always still holds a raising
      subscriber (DropStep shows the removal hits the snapshot's own entry),
      so the ValueError of `list.remove` cannot occur here. */
  function Live(rest: seq<SubId>, live: seq<SubId>, failing: set<SubId>): seq<SubId>
  {
    if rest == [] then live
    else if rest[0] in failing then Live(rest[1..], Seqs.RemoveFirst(live, rest[0]), failing)
    else Live(rest[1..], live, failing)
  }

  /** `emit(board_id, action, data)`: walk a snapshot of the board's list. */
  function Emit(reg: Registry, b: BoardId, ev: Event, failing: set<SubId>): (r: Emission)
    ensures |r.calls| == |Subs(reg, b)|
    ensures forall i :: 0 <= i < |r.calls| ==>
      r.calls[i] == Call(Subs(reg, b)[i], ev, Subs(reg, b)[i] in failing)
    ensures forall c :: c != b ==> Subs(r.reg, c) == Subs(reg, c)
  {
    var snapshot := Subs(reg, b);
    Emission(Calls(snapshot, ev, failing), reg[b := Live(snapshot, snapshot, failing)])
  }

  /** The loop invariant of `emit`: the live list is the survivors seen so far
      followed by the part of the snapshot still to be walked. */
  lemma {:induction false} LiveKeepsSurvivors(kept: seq<SubId>, rest: seq<SubId>, failing: set<SubId>)
    requires forall x :: x in kept ==> x !in failing
    ensures Live(rest, kept + rest, failing) == kept + Survivors(rest, failing)
    decreases |rest|, 1
  {
    if rest == [] {
      assert kept + rest == kept;
    } else if rest[0] in failing {
      DropStep(kept, rest, failing);
    } else {
      KeepStep(kept, rest, failing);
    }
  }

  /** One turn of the loop on a subscriber that raises. */
  lemma {:induction false} DropStep(kept: seq<SubId>, rest: seq<SubId>, failing: set<SubId>)
    requires forall x :: x in kept ==> x !in failing
    requires rest != [] && rest[0] in failing
    ensures Live(rest, kept + rest, failing) == kept + Survivors(rest, failing)
    decreases |rest|, 0
  {
    var s, tail := rest[0], rest[1..];
    assert rest == [s] + tail;
    Seqs.RemoveFirstBehind(kept, rest, s);
    assert Seqs.RemoveFirst(rest, s) == tail;
    assert Survivors(rest, failing) == Survivors(tail, failing);
    LiveKeepsSurvivors(kept, tail, failing);
  }

  /** One turn of the loop on a subscriber that does not raise. */
  lemma {:induction false} KeepStep(kept: seq<SubId>, rest: seq<SubId>, failing: set<SubId>)
    requires forall x :: x in kept ==> x !in failing
    requires rest != [] && rest[0] !in failing
    ensures Live(rest, kept + rest, failing) == kept + Survivors(rest, failing)
    decreases |rest|, 0
  {
    var s, tail := rest[0], rest[1..];
    assert rest == [s] + tail;
    assert kept + rest == (kept + [s]) + tail;
    LiveKeepsSurvivors(kept + [s], tail, failing);
    assert Survivors(rest, failing) == [s] + Survivors(tail, failing);
    assert (kept + [s]) + Survivors(tail, failing) == kept + ([s] + Survivors(tail, failing));
  }

  /** After `emit`, exactly the subscribers whose callbacks raised are gone
      from the board, the others stay in order, and the other boards are untouched. */
  lemma EmitDropsExactlyFailing(reg: Registry, b: BoardId, ev: Event, failing: set<SubId>)
    ensures Subs(Emit(reg, b, ev, failing).reg, b) == Survivors(Subs(reg, b), failing)
    ensures forall c :: c != b ==> Subs(Emit(reg, b, ev, failing).reg, c) == Subs(reg, c)
  {
    LiveKeepsSurvivors([], Subs(reg, b), failing);
    assert [] + Subs(reg, b) == Subs(reg, b);
  }

  /** Survivors are already healthy: a second filter changes nothing. */
  lemma {:induction false} SurvivorsIdempotent(subs: seq<SubId>, failing: set<SubId>)
    ensures Survivors(Survivors(subs, failing), failing) == Survivors(subs, failing)
  {
    if subs != [] {
      SurvivorsIdempotent(subs[1..], failing);
      var head := if subs[0] in failing then [] else [subs[0]];
      SurvivorsConcat(head, Survivors(subs[1..], failing), failing);
    }
  }

  lemma {:induction false} SurvivorsConcat(a: seq<SubId>, b: seq<SubId>, failing: set<SubId>)
    ensures Survivors(a + b, failing) == Survivors(a, failing) + Survivors(b, failing)
  {
    if a == [] {
      assert a + b == b;
    } else {
      assert (a + b)[1..] == a[1..] + b;
      SurvivorsConcat(a[1..], b, failing);
    }
  }
}

=== FILE: feed_store.dfy ===
/** server.py's InMemoryBoardStore, which emits its own events, and the
    replay-then-subscribe start of a StickyFeed. Unlike chalkboard.py's
    store, removing or updating a missing id is a silent no-op, and every
    matching record is handled (in list order), not just the first. */
module FeedStore {
  import opened Wrappers
  import opened Notes
  import Seqs
  import Fanout
  import MemoryStore
  import Framing

  /** The notes (boards and id counter, as in chalkboard.py) and the
      store's own `subscriptions`. */
  datatype Store = Store(notes: MemoryStore.Store, subs: Fanout.Registry)

  /** A store call: the store after it, the events it emitted in order, and
      the subscriber calls those emissions made. */
  datatype Outcome = Outcome(store: Store, events: seq<Event>, calls: seq<Fanout.Call>)

  datatype Added = Added(out: Outcome, sticky: Sticky)

  /** The registry and the subscriber calls after a run of emissions. */
  datatype Emitted = Emitted(subs: Fanout.Registry, calls: seq<Fanout.Call>)

  datatype Opened = Opened(store: Store, writes: seq<string>)

  function Board(s: Store, b: BoardId): seq<Sticky> {
    MemoryStore.Board(s.notes, b)
  }

  /** The records restyled as `updateSticky` leaves them, in order. */
  function Restyled(found: seq<Sticky>, text: string, x: int, y: int): (r: seq<Sticky>)
    ensures |r| == |found|
    ensures forall k :: 0 <= k < |r| ==> r[k] == Restyle(found[k], text, x, y)
  {
    if found == [] then [] else [Restyle(found[0], text, x, y)] + Restyled(found[1..], text, x, y)
  }

  /** The subscriber calls of a run of emissions on one board, from its
      subscriber list alone: every subscriber hears the first event, and
      only those whose callbacks did not raise stay to hear the rest. */
  function CallsEach(subs: seq<Fanout.SubId>, events: seq<Event>, failing: set<Fanout.SubId>): seq<Fanout.Call>
    decreases |events|
  {
    if events == [] then []
    else Fanout.Calls(subs, events[0], failing) + CallsEach(Fanout.Survivors(subs, failing), events[1..], failing)
  }

  /** The calls of every event to one fixed subscriber list, in order. */
  function CallsAll(subs: seq<Fanout.SubId>, events: seq<Event>, failing: set<Fanout.SubId>): (r: seq<Fanout.Call>)
    ensures |r| == |subs| * |events|
    decreases |events|
  {
    if events == [] then []
    else Fanout.Calls(subs, events[0], failing) + CallsAll(subs, events[1..], failing)
  }

  /** The failure set is fixed for the whole operation, so after the first
      event every remaining subscriber is healthy and each later event
      reaches the same subscribers: those of the first event whose callbacks
      did not raise. In server.py a callback could succeed once and raise on
      the next event; that is outside this model. More than one event occurs
      only with duplicate ids. */
  lemma {:induction false} CallsAfterFirst(subs: seq<Fanout.SubId>, events: seq<Event>, failing: set<Fanout.SubId>)
    requires events != []
    ensures CallsEach(subs, events, failing)
      == Fanout.Calls(subs, events[0], failing) + CallsAll(Fanout.Survivors(subs, failing), events[1..], failing)
  {
    Fanout.SurvivorsIdempotent(subs, failing);
    StableCalls(Fanout.Survivors(subs, failing), events[1..], failing);
  }

  /** On subscribers none of whom raises, a run of emissions calls every one
      of them for every event. */
  lemma {:induction false} StableCalls(healthy: seq<Fanout.SubId>, events: seq<Event>, failing: set<Fanout.SubId>)
    requires healthy == Fanout.Survivors(healthy, failing)
    ensures CallsEach(healthy, events, failing) == CallsAll(healthy, events, failing)
    decreases |events|
  {
    if events != [] {
      StableCalls(healthy, events[1..], failing);
    }
  }

  /** `addSticky`: append a fresh record, emit `add` with it once, return it. */
  function AddSticky(s: Store, b: BoardId, text: string, x: int, y: int, failing: set<Fanout.SubId>): (r: Added)
    ensures r.sticky == Sticky(s.notes.lastId + 1, text, x, y)
    ensures r.out.store.notes.lastId == s.notes.lastId + 1
    ensures Board(r.out.store, b) == Board(s, b) + [r.sticky]
    ensures forall c :: c != b ==> Board(r.out.store, c) == Board(s, c)
    ensures r.out.events == [Event(Add, Record(r.sticky))]
    ensures r.out.calls == Fanout.Calls(Fanout.Subs(s.subs, b), Event(Add, Record(r.sticky)), failing)
    ensures Fanout.Subs(r.out.store.subs, b) == Fanout.Survivors(Fanout.Subs(s.subs, b), failing)
    ensures forall c :: c != b ==> Fanout.Subs(r.out.store.subs, c) == Fanout.Subs(s.subs, c)
  {
    var a := MemoryStore.AddSticky(s.notes, b, text, x, y);
    var ev := Event(Add, Record(a.sticky));
    var e := Fanout.Emit(s.subs, b, ev, failing);
    Fanout.EmitDropsExactlyFailing(s.subs, b, ev, failing);
    Added(Outcome(Store(a.store, e.reg), [ev], e.calls), a.sticky)
  }

  /** With the store's invariant, the added record's id is new on the
      board and the invariant still holds. */
  lemma AddOnWellFormed(s: Store, b: BoardId, text: string, x: int, y: int, failing: set<Fanout.SubId>)
    requires MemoryStore.Wf(s.notes)
    ensures var r := AddSticky(s, b, text, x, y, failing);
      && r.sticky.id !in IdSet(Board(s, b))
      && DistinctIds(Board(r.out.store, b))
      && MemoryStore.Wf(r.out.store.notes)
  {
    var r := AddSticky(s, b, text, x, y, failing);
    MemoryStore.AddKeepsWf(s.notes, b, text, x, y);
    assert r.out.store.notes == MemoryStore.AddSticky(s.notes, b, text, x, y).store;
    AppendFresh(Board(s, b), r.sticky);
  }

  /** The emissions of the `for f in found` loops, one `emit` per event in
      order, each seeing the registry the previous one left. An emission
      never touches the boards, so the loops' list edits and their emissions
      can be followed separately. */
  function EmitEach(subs: Fanout.Registry, b: BoardId, events: seq<Event>, failing: set<Fanout.SubId>): (r: Emitted)
    ensures r.calls == CallsEach(Fanout.Subs(subs, b), events, failing)
    ensures events != [] ==> Fanout.Subs(r.subs, b) == Fanout.Survivors(Fanout.Subs(subs, b), failing)
    ensures events == [] ==> r.subs == subs
    ensures forall c :: c != b ==> Fanout.Subs(r.subs, c) == Fanout.Subs(subs, c)
    decreases |events|
  {
    if events == [] then Emitted(subs, [])
    else
      var e := Fanout.Emit(subs, b, events[0], failing);
      Fanout.EmitDropsExactlyFailing(subs, b, events[0], failing);
      Fanout.SurvivorsIdempotent(Fanout.Subs(subs, b), failing);
      var rest := EmitEach(e.reg, b, events[1..], failing);
      assert e.calls == Fanout.Calls(Fanout.Subs(subs, b), events[0], failing);
      Emitted(rest.subs, e.calls + rest.calls)
  }

  /** The list edits of `removeSticky`'s loop: `list.remove(f)` for each match. */
  function RemoveEach(board: seq<Sticky>, found: seq<Sticky>): seq<Sticky>
    decreases |found|
  {
    if found == [] then board
    else RemoveEach(Seqs.RemoveFirst(board, found[0]), found[1..])
  }

  /** The list edits of `updateSticky`'s loop: change `f`, `list.remove(f)`,
      append it. With values instead of objects, the element `list.remove`
      finds for the changed `f` is the first one equal to the unchanged `f`:
      every earlier element either carries another id or is a record of an
      earlier turn, which now sits behind `f`. */
  function UpdateEach(board: seq<Sticky>, found: seq<Sticky>, text: string, x: int, y: int): seq<Sticky>
    decreases |found|
  {
    if found == [] then board
    else
      var f := Restyle(found[0], text, x, y);
      UpdateEach(Seqs.RemoveFirst(board, found[0]) + [f], found[1..], text, x, y)
  }

  /** `removeSticky`: drop every record carrying `id`, announcing each; a
      missing id changes nothing and emits nothing. */
  function RemoveSticky(s: Store, b: BoardId, id: int, failing: set<Fanout.SubId>): (r: Outcome)
    ensures Board(r.store, b) == WithoutId(Board(s, b), id)
    ensures forall c :: c != b ==> Board(r.store, c) == Board(s, c)
    ensures r.store.notes.lastId == s.notes.lastId
    ensures |r.events| == |WithId(Board(s, b), id)|
    ensures forall k :: 0 <= k < |r.events| ==> r.events[k] == Event(Remove, Record(WithId(Board(s, b), id)[k]))
    ensures r.calls == CallsEach(Fanout.Subs(s.subs, b), r.events, failing)
    ensures HasId(Board(s, b), id) ==> Fanout.Subs(r.store.subs, b) == Fanout.Survivors(Fanout.Subs(s.subs, b), failing)
    ensures forall c :: c != b ==> Fanout.Subs(r.store.subs, c) == Fanout.Subs(s.subs, c)
    ensures !HasId(Board(s, b), id) ==> r.events == [] && r.calls == [] && r.store.subs == s.subs
  {
    var board := Board(s, b);
    var found := WithId(board, id);
    var events := seq(|found|, k requires 0 <= k < |found| => Event(Remove, Record(found[k])));
    var e := EmitEach(s.subs, b, events, failing);
    RemoveEachDropsAll(board, id);
    WithIdNonEmpty(board, id);
    Outcome(Store(s.notes.(boards := s.notes.boards[b := RemoveEach(board, found)]), e.subs), events, e.calls)
  }

  /** `updateSticky`: restyle every record carrying `id` and move it to the
      end, announcing each; a missing id changes nothing and emits nothing. */
  function UpdateSticky(s: Store, b: BoardId, id: int, text: string, x: int, y: int, failing: set<Fanout.SubId>): (r: Outcome)
    ensures Board(r.store, b) == WithoutId(Board(s, b), id) + Restyled(WithId(Board(s, b), id), text, x, y)
    ensures forall c :: c != b ==> Board(r.store, c) == Board(s, c)
    ensures r.store.notes.lastId == s.notes.lastId
    ensures |r.events| == |WithId(Board(s, b), id)|
    ensures forall k :: 0 <= k < |r.events| ==> r.events[k] == Event(Update, Record(Sticky(id, text, x, y)))
    ensures r.calls == CallsEach(Fanout.Subs(s.subs, b), r.events, failing)
    ensures HasId(Board(s, b), id) ==> Fanout.Subs(r.store.subs, b) == Fanout.Survivors(Fanout.Subs(s.subs, b), failing)
    ensures forall c :: c != b ==> Fanout.Subs(r.store.subs, c) == Fanout.Subs(s.subs, c)
    ensures !HasId(Board(s, b), id) ==> r.events == [] && r.calls == [] && r.store.subs == s.subs
  {
    var board := Board(s, b);
    var found := WithId(board, id);
    var events := seq(|found|, k requires 0 <= k < |found| => Event(Update, Record(Restyle(found[k], text, x, y))));
    var e := EmitEach(s.subs, b, events, failing);
    UpdateEachMovesAll(board, [], id, text, x, y);
    assert board + [] == board;
    WithIdNonEmpty(board, id);
    Outcome(Store(s.notes.(boards := s.notes.boards[b := UpdateEach(board, found, text, x, y)]), e.subs), events, e.calls)
  }

  /** Removing the matches one by one, in order, leaves exactly the records
      without the id. */
  lemma {:induction false} RemoveEachDropsAll(board: seq<Sticky>, id: int)
    ensures RemoveEach(board, WithId(board, id)) == WithoutId(board, id)
    decreases |WithId(board, id)|
  {
    WithIdNonEmpty(board, id);
    if HasId(board, id) {
      var found := WithId(board, id);
      FirstMatchSplit(board, id);
      var rest := Seqs.RemoveAt(board, FirstIndex(board, id));
      assert found[1..] == WithId(rest, id);
      RemoveEachDropsAll(rest, id);
    } else {
      NoIdFilters(board, id);
    }
  }

  /** Updating the matches one by one, in order, keeps the other records in
      order and puts the restyled matches, in order, after them. `done` is
      the part already moved to the end by earlier turns. */
  lemma {:induction false} UpdateEachMovesAll(board: seq<Sticky>, done: seq<Sticky>, id: int, text: string, x: int, y: int)
    ensures UpdateEach(board + done, WithId(board, id), text, x, y)
      == WithoutId(board, id) + done + Restyled(WithId(board, id), text, x, y)
    decreases |WithId(board, id)|, 1
  {
    WithIdNonEmpty(board, id);
    if HasId(board, id) {
      UpdateStep(board, done, id, text, x, y);
    } else {
      NoIdFilters(board, id);
      assert WithoutId(board, id) + done + [] == board + done;
    }
  }

  /** One turn of `updateSticky`'s loop. */
  lemma {:induction false} UpdateStep(board: seq<Sticky>, done: seq<Sticky>, id: int, text: string, x: int, y: int)
    requires HasId(board, id)
    ensures UpdateEach(board + done, WithId(board, id), text, x, y)
      == WithoutId(board, id) + done + Restyled(WithId(board, id), text, x, y)
    decreases |WithId(board, id)|, 0
  {
    WithIdNonEmpty(board, id);
    var found := WithId(board, id);
    FirstMatchSplit(board, id);
    var rest := Seqs.RemoveAt(board, FirstIndex(board, id));
    var f := Restyle(found[0], text, x, y);
    assert found[0] in board;
    Seqs.RemoveFirstInFront(board, done, found[0]);
    assert found[1..] == WithId(rest, id);
    assert found[0] == board[FirstIndex(board, id)];
    assert Seqs.RemoveFirst(board, found[0]) == rest;
    var moved := Seqs.RemoveFirst(board + done, found[0]) + [f];
    assert moved == rest + (done + [f]);
    assert UpdateEach(board + done, found, text, x, y) == UpdateEach(moved, found[1..], text, x, y);
    UpdateEachMovesAll(rest, done + [f], id, text, x, y);
    assert Restyled(found, text, x, y) == [f] + Restyled(found[1..], text, x, y);
    var tail := Restyled(found[1..], text, x, y);
    assert WithoutId(board, id) + (done + [f]) + tail == WithoutId(board, id) + done + ([f] + tail);
  }

  /** With the store's invariant (distinct ids), removal emits at most once
      and drops exactly the one matching record. */
  lemma RemoveOnWellFormed(s: Store, b: BoardId, id: int, failing: set<Fanout.SubId>)
    requires MemoryStore.Wf(s.notes)
    ensures var r := RemoveSticky(s, b, id, failing);
      && (HasId(Board(s, b), id) ==>
            && r.events == [Event(Remove, Record(Board(s, b)[FirstIndex(Board(s, b), id)]))]
            && Board(r.store, b) == Seqs.RemoveAt(Board(s, b), FirstIndex(Board(s, b), id)))
      && MemoryStore.Wf(r.store.notes)
  {
    var board := Board(s, b);
    assert DistinctIds(board);
    DistinctWithId(board, id);
    var r := RemoveSticky(s, b, id, failing);
    if HasId(board, id) {
      RemoveAtDistinct(board, FirstIndex(board, id));
    } else {
      assert IdSet(Board(r.store, b)) == IdSet(board);
    }
    MemoryStore.ShrinkBoardKeepsWf(s.notes, b, Board(r.store, b));
    assert r.store.notes == s.notes.(boards := s.notes.boards[b := Board(r.store, b)]);
  }

  /** With the store's invariant, update emits at most once, keeps the id
      and the board's length, and moves the one record to the end. */
  lemma UpdateOnWellFormed(s: Store, b: BoardId, id: int, text: string, x: int, y: int, failing: set<Fanout.SubId>)
    requires MemoryStore.Wf(s.notes)
    ensures var r := UpdateSticky(s, b, id, text, x, y, failing);
      && (HasId(Board(s, b), id) ==>
            && r.events == [Event(Update, Record(Sticky(id, text, x, y)))]
            && Board(r.store, b) == Seqs.RemoveAt(Board(s, b), FirstIndex(Board(s, b), id)) + [Sticky(id, text, x, y)]
            && |Board(r.store, b)| == |Board(s, b)|)
      && MemoryStore.Wf(r.store.notes)
  {
    if HasId(Board(s, b), id) {
      UpdateMovesOne(s, b, id, text, x, y, failing);
    }
    UpdateKeepsWf(s, b, id, text, x, y, failing);
  }

  /** The events and the board of an update on a well-formed store. */
  lemma UpdateMovesOne(s: Store, b: BoardId, id: int, text: string, x: int, y: int, failing: set<Fanout.SubId>)
    requires MemoryStore.Wf(s.notes) && HasId(Board(s, b), id)
    ensures var r := UpdateSticky(s, b, id, text, x, y, failing);
      && r.events == [Event(Update, Record(Sticky(id, text, x, y)))]
      && Board(r.store, b) == Seqs.RemoveAt(Board(s, b), FirstIndex(Board(s, b), id)) + [Sticky(id, text, x, y)]
  {
    var board := Board(s, b);
    assert DistinctIds(board);
    DistinctWithId(board, id);
    UpdateOneRecord(board, id, text, x, y);
  }

  /** An update on a well-formed store keeps it well-formed. */
  lemma UpdateKeepsWf(s: Store, b: BoardId, id: int, text: string, x: int, y: int, failing: set<Fanout.SubId>)
    requires MemoryStore.Wf(s.notes)
    ensures MemoryStore.Wf(UpdateSticky(s, b, id, text, x, y, failing).store.notes)
  {
    var board := Board(s, b);
    assert DistinctIds(board);
    DistinctWithId(board, id);
    var r := UpdateSticky(s, b, id, text, x, y, failing);
    if HasId(board, id) {
      UpdateOneRecord(board, id, text, x, y);
    } else {
      assert IdSet(Board(r.store, b)) == IdSet(board);
    }
    MemoryStore.ShrinkBoardKeepsWf(s.notes, b, Board(r.store, b));
    assert r.store.notes == s.notes.(boards := s.notes.boards[b := Board(r.store, b)]);
  }

  /** The board edit of an update when exactly one record carries the id:
      it keeps the id set and the ids distinct. */
  lemma UpdateOneRecord(board: seq<Sticky>, id: int, text: string, x: int, y: int)
    requires DistinctIds(board) && HasId(board, id)
    requires WithId(board, id) == [board[FirstIndex(board, id)]]
    ensures var i := FirstIndex(board, id);
      && Restyled(WithId(board, id), text, x, y) == [Sticky(id, text, x, y)]
      && DistinctIds(Seqs.RemoveAt(board, i) + [Sticky(id, text, x, y)])
      && IdSet(Seqs.RemoveAt(board, i) + [Sticky(id, text, x, y)]) <= IdSet(board)
  {
    var i := FirstIndex(board, id);
    var rest := Seqs.RemoveAt(board, i);
    RemoveAtDistinct(board, i);
    AppendFresh(rest, Sticky(id, text, x, y));
    assert board[i].id in IdSet(board);
  }

  /** The `add` frames a new feed writes for the existing notes, in list order. */
  function Replay(stickies: seq<Sticky>, ser: Payload -> string): (r: seq<string>)
    ensures |r| == |stickies|
    ensures forall i :: 0 <= i < |r| ==> r[i] == Framing.SseMsg("add", Record(stickies[i]), ser)
  {
    if stickies == [] then []
    else [Framing.SseMsg("add", Record(stickies[0]), ser)] + Replay(stickies[1..], ser)
  }

  /** StickyFeed.render_GET: write `hello`, then one `add` per existing note
      in list order, then subscribe the feed to the board. */
  function OpenFeed(s: Store, b: BoardId, sub: Fanout.SubId, ser: Payload -> string): (r: Opened)
    ensures |r.writes| == 1 + |Board(s, b)|
    ensures r.writes[0] == Framing.SseMsg("hello", Text("keep alive"), ser)
    ensures forall i :: 0 <= i < |Board(s, b)| ==>
      r.writes[i + 1] == Framing.SseMsg("add", Record(Board(s, b)[i]), ser)
    ensures r.store.notes == s.notes
    ensures Fanout.Subs(r.store.subs, b) == Fanout.Subs(s.subs, b) + [sub]
    ensures forall c :: c != b ==> Fanout.Subs(r.store.subs, c) == Fanout.Subs(s.subs, c)
  {
    var hello := Framing.SseMsg("hello", Text("keep alive"), ser);
    var replayed := Replay(Board(s, b), ser);
    var writes := [hello] + replayed;
    assert forall i :: 0 <= i < |replayed| ==> writes[i + 1] == replayed[i];
    Opened(s.(subs := Fanout.Subscribe(s.subs, b, sub)), writes)
  }

  /** Once its feed is open, a subscriber whose callback does not raise is
      the last one called for the next note added to the board, and stays
      subscribed. */
  lemma OpenFeedThenHearsAdd(s: Store, b: BoardId, sub: Fanout.SubId, ser: Payload -> string,
                             text: string, x: int, y: int, failing: set<Fanout.SubId>)
    requires sub !in failing
    ensures var o := OpenFeed(s, b, sub, ser);
      var a := AddSticky(o.store, b, text, x, y, failing);
      && a.out.calls[|a.out.calls| - 1] == Fanout.Call(sub, Event(Add, Record(a.sticky)), false)
      && sub in Fanout.Subs(a.out.store.subs, b)
  {
    var o := OpenFeed(s, b, sub, ser);
    var ev := Event(Add, Record(AddSticky(o.store, b, text, x, y, failing).sticky));
    Fanout.EmitDropsExactlyFailing(o.store.subs, b, ev, failing);
    assert sub in Fanout.Subs(o.store.subs, b);
  }
}

=== FILE: framing.dfy ===
/** The event-stream framing `event: NAME\ndata: DATA\n\n` written by
    `sseMsg` (chalkboard.py, server.py) and `mkevent` (server.go), and a
    reader for it that the writers are proved against. */
module Framing {
  import opened Wrappers
  import opened Notes

  /** The two fields a frame carries. */
  datatype Fields = Fields(name: string, data: string)

  /** One event-stream frame. */
  function Frame(name: string, data: string): string {
    "event: " + name + "\n" + "data: " + data + "\n\n"
  }

  /** A field fits in a frame when it holds no line break; the serialisers
      in use (`json.dumps`, `json.Marshal`) escape line breaks. */
  predicate OneLine(s: string) {
    '\n' !in s
  }

  /** Position of the first `c` in `s`. */
  function FindChar(s: string, c: char): (r: Option<nat>)
    ensures r.Some? ==> r.value < |s| && s[r.value] == c && c !in s[..r.value]
    ensures r.None? ==> c !in s
  {
    if s == [] then None
    else if s[0] == c then Some(0)
    else
      match FindChar(s[1..], c)
      case None => None
      case Some(i) =>
        assert s[..i + 1] == [s[0]] + s[1..][..i];
        Some(i + 1)
  }

  /** The first `c` is at `k` when `s[k]` is `c` and nothing before it is. */
  lemma FindCharAt(s: string, c: char, k: nat)
    requires k < |s| && s[k] == c && c !in s[..k]
    ensures FindChar(s, c) == Some(k)
  {
    assert forall j :: 0 <= j < k ==> s[..k][j] == s[j];
    assert forall j :: k < j <= |s| ==> s[..j][k] == c;
  }

  /** Read one frame: the `event: ` line, then the `data: ` line, then the
      blank line that ends the frame. */
  function ParseFrame(s: string): (r: Option<Fields>)
  {
    if |s| < 7 || s[..7] != "event: " then None
    else
      var rest := s[7..];
      match FindChar(rest, '\n')
      case None => None
      case Some(i) =>
        var after := rest[i + 1..];
        if |after| < 8 || after[..6] != "data: " || after[|after| - 2..] != "\n\n" then None
        else
          var data := after[6..|after| - 2];
          if '\n' in data then None else Some(Fields(rest[..i], data))
  }

  /** Reading back a frame yields the fields it was written from. */
  lemma FrameRoundTrip(name: string, data: string)
    ensures OneLine(name) && OneLine(data) ==> ParseFrame(Frame(name, data)) == Some(Fields(name, data))
  {
    if OneLine(name) && OneLine(data) {
      var s := Frame(name, data);
      var n := |name|;
      FrameLayout(name, data);
      var rest := s[7..];
      assert rest[..n] == name && rest[n] == '\n';
      FindCharAt(rest, '\n', n);
      var after := rest[n + 1..];
      assert after == s[8 + n..];
      assert after[..6] == "data: " && after[6..|after| - 2] == data && after[|after| - 2..] == "\n\n";
    }
  }

  /** Where the fixed text and the fields sit in a frame. */
  lemma FrameLayout(name: string, data: string)
    ensures var s, n := Frame(name, data), |name|;
      && |s| == 16 + n + |data|
      && s[..7] == "event: " && s[7..7 + n] == name && s[7 + n] == '\n'
      && s[8 + n..14 + n] == "data: " && s[14 + n..|s| - 2] == data && s[|s| - 2..] == "\n\n"
  {
    var s, n := Frame(name, data), |name|;
    var a := "event: " + name + "\n";
    var b := "data: " + data;
    assert s == a + b + "\n\n";
    assert a[..7] == "event: " && a[7..7 + n] == name && a[7 + n] == '\n';
    assert b[..6] == "data: " && b[6..] == data;
    assert s[..|a|] == a && s[|a|..|s| - 2] == b && s[|s| - 2..] == "\n\n";
  }

  /** Whatever the reader accepts is exactly one frame of one-line fields:
      the frame is determined by its fields. */
  lemma ParseFrameSound(s: string)
    ensures ParseFrame(s).Some? ==>
      && OneLine(ParseFrame(s).value.name)
      && OneLine(ParseFrame(s).value.data)
      && s == Frame(ParseFrame(s).value.name, ParseFrame(s).value.data)
  {
    if ParseFrame(s).Some? {
      var rest := s[7..];
      var i := FindChar(rest, '\n').value;
      var after := rest[i + 1..];
      SliceOfSlice(s, 7, i + 1, |rest|);
      SliceOfSlice(s, 7, 0, i);
      assert after == s[8 + i..] && |after| == |s| - 8 - i;
      SliceOfSlice(s, 8 + i, 0, 6);
      SliceOfSlice(s, 8 + i, 6, |after| - 2);
      SliceOfSlice(s, 8 + i, |after| - 2, |after|);
      Reassemble(s, i);
    }
  }

  lemma SliceOfSlice(s: string, k: nat, a: nat, b: nat)
    requires k <= |s| && a <= b <= |s| - k
    ensures s[k..][a..b] == s[k + a..k + b]
  {
  }

  /** A string with the frame's fixed text at the frame's places is the
      frame of what lies between. */
  lemma Reassemble(s: string, i: nat)
    requires |s| >= 16 + i
    requires s[..7] == "event: " && s[7 + i] == '\n' && s[8 + i..14 + i] == "data: " && s[|s| - 2..] == "\n\n"
    ensures s == Frame(s[7..7 + i], s[14 + i..|s| - 2])
  {
    assert s == s[..7] + s[7..7 + i] + [s[7 + i]] + s[8 + i..14 + i] + s[14 + i..|s| - 2] + s[|s| - 2..];
  }

  /** `sseMsg(name, data)` with the payload serialised by `ser`, standing
      for `json.dumps`. */
  function SseMsg(name: string, data: Payload, ser: Payload -> string): (r: string)
    ensures OneLine(name) && OneLine(ser(data)) ==> ParseFrame(r) == Some(Fields(name, ser(data)))
  {
    FrameRoundTrip(name, ser(data));
    Frame(name, ser(data))
  }

  /** `mkevent(evt, data)` in server.go, whose data is already serialised.
      The round trip is invoked only under its guard: server.go builds its
      `hello` frame from literals, and an unguarded call would set the
      verifier evaluating the reader on that literal frame. */
  function MkEvent(evt: string, data: string): (r: string)
    ensures OneLine(evt) && OneLine(data) ==> ParseFrame(r) == Some(Fields(evt, data))
  {
    if OneLine(evt) && OneLine(data) then
      FrameRoundTrip(evt, data);
      Frame(evt, data)
    else Frame(evt, data)
  }
}

=== FILE: go_store.dfy ===
/** server.go: the map-backed `MemStore`, `mkevent` framing (see Framing),
    and the client registry and broadcast of the event loop `Ev.work`.

    Go's `int` is as wide as the platform's word; this model assumes a
    64-bit platform. Signed overflow wraps around, and the counter below
    does so explicitly. */
module GoStore {
  import opened Wrappers
  import opened Notes
  import Seqs
  import Framing

  const MinInt: int := -0x8000_0000_0000_0000
  const MaxInt: int := 0x7fff_ffff_ffff_ffff

  predicate IsInt64(x: int) {
    MinInt <= x <= MaxInt
  }

  /** 2 to the 64th: on a 64-bit platform Go's `int` arithmetic is exact
      modulo this. */
  const Modulus: int := 0x1_0000_0000_0000_0000

  /** `x += 1` on a Go `int`: the 64-bit value congruent to `x + 1`. */
  function Inc(x: int): (r: int)
    requires IsInt64(x)
    ensures IsInt64(r) && (r - (x + 1)) % Modulus == 0
  {
    if x == MaxInt then MinInt else x + 1
  }

  /** Two 64-bit values congruent modulo 2^64 are equal. */
  lemma CongruentInt64(y: int, z: int)
    requires IsInt64(y) && IsInt64(z) && (y - z) % Modulus == 0
    ensures y == z
  {
    var d := y - z;
    var q := d / Modulus;
    assert d == q * Modulus;
    MultipleBounds(q);
    assert q == 0;
  }

  /** A non-zero multiple of the modulus is at least the modulus in size. */
  lemma MultipleBounds(q: int)
    ensures q >= 1 ==> q * Modulus >= Modulus
    ensures q <= -1 ==> q * Modulus <= -Modulus
  {
  }

  /** The wrapped increment is `x + 1` below the top of the range and the
      most negative value at the top; and it is the only 64-bit value
      congruent to `x + 1`. */
  lemma IncCases(x: int, y: int)
    requires IsInt64(x)
    ensures x < MaxInt ==> Inc(x) == x + 1
    ensures x == MaxInt ==> Inc(x) == MinInt
    ensures IsInt64(y) && (y - (x + 1)) % Modulus == 0 ==> y == Inc(x)
  {
    var r := Inc(x);
    if x < MaxInt {
      CongruentInt64(r, x + 1);
    } else {
      assert (MinInt - (x + 1)) % Modulus == 0;
      CongruentInt64(r, MinInt);
    }
    if IsInt64(y) && (y - (x + 1)) % Modulus == 0 {
      assert (y - r) == (y - (x + 1)) - (r - (x + 1));
      ModDifference(y - (x + 1), r - (x + 1));
      CongruentInt64(y, r);
    }
  }

  /** The difference of two multiples of the modulus is one. */
  lemma ModDifference(a: int, b: int)
    requires a % Modulus == 0 && b % Modulus == 0
    ensures (a - b) % Modulus == 0
  {
    var qa, qb := a / Modulus, b / Modulus;
    assert a == qa * Modulus && b == qb * Modulus;
    assert a - b == (qa - qb) * Modulus;
  }

  // ---------------------------------------------------------------------
  // MemStore

  /** The stickies by id, and the id the next add will take. */
  datatype MemStore = MemStore(stickies: map<int, Sticky>, id: int)

  /** The store `main` creates: nothing filed, every sticky under its own
      id, and the counter at 1, inside the 64-bit range. */
  function Init(): (r: MemStore)
    ensures forall k :: k !in r.stickies
    ensures KeysMatchIds(r)
    ensures r.id == 1 && IsInt64(r.id)
  {
    MemStore(map[], 1)
  }

  /** Every sticky is filed under its own id. */
  ghost predicate KeysMatchIds(m: MemStore) {
    forall k :: k in m.stickies ==> m.stickies[k].id == k
  }

  datatype Added = Added(store: MemStore, sticky: Sticky)

  /** `AddSticky(a)`: the sticky takes the counter as id (whatever id it came
      with), is filed under it, and the counter moves on, wrapping at the top
      of the 64-bit range. Whatever was filed under that id is replaced. */
  function AddSticky(m: MemStore, a: Sticky): (r: Added)
    requires IsInt64(m.id)
    ensures r.sticky == Sticky(m.id, a.note, a.x, a.y)
    ensures r.store.stickies.Keys == m.stickies.Keys + {m.id}
    ensures r.store.stickies[m.id] == r.sticky
    ensures forall k :: k in m.stickies && k != m.id ==> r.store.stickies[k] == m.stickies[k]
    ensures r.store.id == Inc(m.id) && IsInt64(r.store.id)
  {
    var s := a.(id := m.id);
    Added(MemStore(m.stickies[s.id := s], Inc(m.id)), s)
  }

  /** `RmSticky(id)`: Go's `delete`, which ignores a missing key. */
  function RmSticky(m: MemStore, id: int): (r: MemStore)
    ensures r.stickies.Keys == m.stickies.Keys - {id}
    ensures forall k :: k in r.stickies ==> r.stickies[k] == m.stickies[k]
    ensures r.id == m.id
  {
    m.(stickies := m.stickies - {id})
  }

  /** `UpdateSticky(a)`: files `a` under its own id, adding it when the id
      is not present. */
  function UpdateSticky(m: MemStore, a: Sticky): (r: MemStore)
    ensures r.stickies.Keys == m.stickies.Keys + {a.id}
    ensures r.stickies[a.id] == a
    ensures forall k :: k in m.stickies && k != a.id ==> r.stickies[k] == m.stickies[k]
    ensures r.id == m.id
  {
    m.(stickies := m.stickies[a.id := a])
  }

  /** All three operations keep every sticky under its own id. */
  lemma OperationsKeepKeys(m: MemStore, a: Sticky, id: int)
    requires KeysMatchIds(m)
    ensures IsInt64(m.id) ==> KeysMatchIds(AddSticky(m, a).store)
    ensures KeysMatchIds(RmSticky(m, id))
    ensures KeysMatchIds(UpdateSticky(m, a))
  {
  }

  /** Removing what was just added restores the stickies when the counter
      was not already in use. */
  lemma AddThenRemove(m: MemStore, a: Sticky)
    requires IsInt64(m.id) && m.id !in m.stickies
    ensures RmSticky(AddSticky(m, a).store, m.id).stickies == m.stickies
  {
  }

  /** Removal after an update forgets the update: the result is as if the
      sticky had been removed straight away. */
  lemma UpdateThenRemove(m: MemStore, a: Sticky)
    ensures RmSticky(UpdateSticky(m, a), a.id) == RmSticky(m, a.id)
  {
  }

  /** Updating twice with the same sticky is updating once. */
  lemma UpdateIdempotent(m: MemStore, a: Sticky)
    ensures UpdateSticky(UpdateSticky(m, a), a) == UpdateSticky(m, a)
  {
  }

  /** A series of adds. */
  function AddAll(m: MemStore, notes: seq<Sticky>): MemStore
    requires IsInt64(m.id)
    decreases |notes|
  {
    if notes == [] then m else AddAll(AddSticky(m, notes[0]).store, notes[1..])
  }

  /** Below the top of the range, consecutive adds take consecutive ids,
      each note is filed under its own id, nothing filed before the counter
      is touched, and nothing else is filed. */
  lemma AddAllIssuesRange(m: MemStore, notes: seq<Sticky>)
    requires IsInt64(m.id) && m.id + |notes| <= MaxInt
    requires forall k :: k in m.stickies ==> k < m.id
    ensures AddAll(m, notes).id == m.id + |notes|
    ensures forall k :: k in AddAll(m, notes).stickies <==> k in m.stickies || m.id <= k < m.id + |notes|
    ensures forall i :: 0 <= i < |notes| ==>
      AddAll(m, notes).stickies[m.id + i] == Sticky(m.id + i, notes[i].note, notes[i].x, notes[i].y)
    ensures forall k :: k in m.stickies ==> AddAll(m, notes).stickies[k] == m.stickies[k]
  {
    AddAllKeys(m, notes);
    AddAllValues(m, notes);
  }

  /** The counter and the keys after a series of adds below the top. */
  lemma {:induction false} AddAllKeys(m: MemStore, notes: seq<Sticky>)
    requires IsInt64(m.id) && m.id + |notes| <= MaxInt
    ensures AddAll(m, notes).id == m.id + |notes|
    ensures forall k :: k in AddAll(m, notes).stickies <==> k in m.stickies || m.id <= k < m.id + |notes|
    decreases |notes|
  {
    if notes != [] {
      var m1 := AddSticky(m, notes[0]).store;
      IncCases(m.id, m.id);
      AddAllKeys(m1, notes[1..]);
    }
  }

  /** The values after a series of adds below the top: old entries under
      smaller keys stay, and each note sits under the id it was given. */
  lemma {:induction false} AddAllValues(m: MemStore, notes: seq<Sticky>)
    requires IsInt64(m.id) && m.id + |notes| <= MaxInt
    requires forall k :: k in m.stickies ==> k < m.id
    ensures forall k :: k in AddAll(m, notes).stickies <==> k in m.stickies || m.id <= k < m.id + |notes|
    ensures forall i :: 0 <= i < |notes| ==>
      AddAll(m, notes).stickies[m.id + i] == Sticky(m.id + i, notes[i].note, notes[i].x, notes[i].y)
    ensures forall k :: k in m.stickies ==> AddAll(m, notes).stickies[k] == m.stickies[k]
    decreases |notes|
  {
    AddAllKeys(m, notes);
    if notes != [] {
      var m1 := AddSticky(m, notes[0]).store;
      IncCases(m.id, m.id);
      AddAllValues(m1, notes[1..]);
      var r := AddAll(m, notes);
      assert r == AddAll(m1, notes[1..]);
      assert m.id in m1.stickies && r.stickies[m.id] == m1.stickies[m.id];
      assert forall k :: k in m.stickies ==> k in m1.stickies && m1.stickies[k] == m.stickies[k];
      forall i | 0 <= i < |notes|
        ensures r.stickies[m.id + i] == Sticky(m.id + i, notes[i].note, notes[i].x, notes[i].y)
      {
        if i > 0 {
          assert notes[i] == notes[1..][i - 1];
          assert m.id + i == m1.id + (i - 1);
        }
      }
    }
  }

  /** From the store `main` creates, the i-th add (counting from 0) is given
      id i + 1, and the ids filed are exactly 1 to the number of adds: no
      add replaces another until the counter would pass the top. */
  lemma FreshIdsFromInit(notes: seq<Sticky>)
    requires |notes| < MaxInt
    ensures forall k :: k in AddAll(Init(), notes).stickies <==> 1 <= k <= |notes|
    ensures forall i :: 0 <= i < |notes| ==>
      AddAll(Init(), notes).stickies[i + 1] == Sticky(i + 1, notes[i].note, notes[i].x, notes[i].y)
  {
    AddAllIssuesRange(Init(), notes);
  }

  /** The handlers' calls on the store. */
  datatype Op = AddOp(a: Sticky) | RmOp(id: int) | UpdateOp(a: Sticky)

  /** The store after a series of calls, and the ids the adds were given,
      in order. */
  datatype Ran = Ran(store: MemStore, issued: seq<int>)

  function Run(m: MemStore, ops: seq<Op>): (r: Ran)
    requires IsInt64(m.id)
    ensures IsInt64(r.store.id)
    decreases |ops|
  {
    if ops == [] then Ran(m, [])
    else match ops[0]
      case AddOp(a) =>
        var st := AddSticky(m, a);
        var rest := Run(st.store, ops[1..]);
        Ran(rest.store, [st.sticky.id] + rest.issued)
      case RmOp(id) => Run(RmSticky(m, id), ops[1..])
      case UpdateOp(a) => Run(UpdateSticky(m, a), ops[1..])
  }

  /** The number of adds among `ops`. */
  function Adds(ops: seq<Op>): nat
    decreases |ops|
  {
    if ops == [] then 0 else (if ops[0].AddOp? then 1 else 0) + Adds(ops[1..])
  }

  /** Removals and updates leave the counter alone: while the counter stays
      below the top, the adds of any mix of calls are given consecutive ids
      starting at the counter, one per add. */
  lemma {:induction false} RunIssuesConsecutive(m: MemStore, ops: seq<Op>)
    requires IsInt64(m.id) && m.id + Adds(ops) <= MaxInt
    ensures |Run(m, ops).issued| == Adds(ops)
    ensures forall i :: 0 <= i < Adds(ops) ==> Run(m, ops).issued[i] == m.id + i
    ensures Run(m, ops).store.id == m.id + Adds(ops)
    decreases |ops|
  {
    if ops != [] {
      match ops[0]
      case AddOp(a) =>
        var st := AddSticky(m, a);
        IncCases(m.id, m.id);
        RunIssuesConsecutive(st.store, ops[1..]);
      case RmOp(id) =>
        RunIssuesConsecutive(RmSticky(m, id), ops[1..]);
      case UpdateOp(a) =>
        RunIssuesConsecutive(UpdateSticky(m, a), ops[1..]);
    }
  }

  /** From the store `main` creates, with fewer adds than the top of the
      range, any mix of adds, removals and updates gives the adds the ids
      1, 2, ... in order: no id is issued twice. */
  lemma FreshIdsInAnyRun(ops: seq<Op>)
    requires Adds(ops) < MaxInt
    ensures forall i :: 0 <= i < |Run(Init(), ops).issued| ==> Run(Init(), ops).issued[i] == i + 1
    ensures Seqs.Distinct(Run(Init(), ops).issued)
  {
    RunIssuesConsecutive(Init(), ops);
  }

  /** An update may file a sticky under an id the counter has not issued
      yet; the add that reaches that id then silently replaces it. */
  lemma UpsertThenAddReplaces(b: Sticky)
    ensures var m := UpdateSticky(Init(), Sticky(1, "early", 0, 0));
      && AddSticky(m, b).store.stickies == map[1 := Sticky(1, b.note, b.x, b.y)]
  {
  }

  /** At the top of the range the counter wraps to the most negative id. */
  lemma CounterWraps(m: MemStore, a: Sticky)
    requires m.id == MaxInt
    ensures AddSticky(m, a).sticky.id == MaxInt
    ensures AddSticky(m, a).store.id == MinInt
  {
  }

  // ---------------------------------------------------------------------
  // The event loop's clients

  /** A client is keyed by its request's remote address. */
  type Addr = string

  /** One subscribed event stream: its writer and its `done` channel. */
  datatype Client = Client(conn: nat)

  datatype Registered = Registered(clients: map<Addr, Client>, displaced: Option<Client>)

  /** A new subscription: filed under its address, replacing (and
      forgetting, without signalling it) any client already there. */
  function Register(clients: map<Addr, Client>, addr: Addr, c: Client): (r: Registered)
    ensures r.clients.Keys == clients.Keys + {addr} && r.clients[addr] == c
    ensures forall a :: a in clients && a != addr ==> r.clients[a] == clients[a]
    ensures r.displaced.Some? <==> addr in clients
    ensures r.displaced.Some? ==> r.displaced.value == clients[addr]
  {
    Registered(clients[addr := c], if addr in clients then Some(clients[addr]) else None)
  }

  /** A displaced client is out of reach: no later broadcast writes to it or
      signals its `done`, so its request never returns. */
  lemma DisplacedUnreachable(clients: map<Addr, Client>, addr: Addr, c: Client)
    requires forall a, b :: a in clients && b in clients && a != b ==> clients[a] != clients[b]
    requires c !in clients.Values
    ensures var r := Register(clients, addr, c);
      r.displaced.Some? ==> r.displaced.value !in r.clients.Values
  {
    var r := Register(clients, addr, c);
    if r.displaced.Some? {
      forall a | a in r.clients ensures r.clients[a] != r.displaced.value {
        if a != addr {
          assert r.clients[a] == clients[a];
        }
      }
    }
  }

  /** Reference definition: the clients whose writes succeed. */
  function Survive(clients: map<Addr, Client>, failing: set<Addr>): (r: map<Addr, Client>)
    ensures r.Keys == clients.Keys - failing
    ensures forall a :: a in r ==> r[a] == clients[a]
  {
    map a | a in clients && a !in failing :: clients[a]
  }

  /** One broadcast of a frame: every client is written once, in map order
      (which Go leaves unspecified); the clients whose write fails
      (`failing`) are signalled on `done` and deleted after the walk. */
  method Broadcast(clients: map<Addr, Client>, failing: set<Addr>)
    returns (written: seq<Addr>, dropped: seq<Addr>, after: map<Addr, Client>)
    ensures forall a :: a in written <==> a in clients
    ensures Seqs.Distinct(written)
    ensures forall a :: a in dropped <==> a in clients && a in failing
    ensures Seqs.Distinct(dropped)
    ensures after == Survive(clients, failing)
  {
    var todo := clients.Keys;
    written, dropped := [], [];
    while todo != {}
      invariant todo <= clients.Keys
      invariant forall a :: a in written <==> a in clients && a !in todo
      invariant Seqs.Distinct(written)
      invariant forall a :: a in dropped <==> a in written && a in failing
      invariant Seqs.Distinct(dropped)
      decreases |todo|
    {
      var k := Pick(todo);
      written := written + [k];
      if k in failing {
        dropped := dropped + [k];
      }
      todo := todo - {k};
    }
    after := DeleteAll(clients, dropped);
    assert after.Keys == Survive(clients, failing).Keys;
  }

  /** The deletion loop after a broadcast: every listed address goes. */
  method DeleteAll(clients: map<Addr, Client>, gone: seq<Addr>) returns (after: map<Addr, Client>)
    ensures forall a :: a in after <==> a in clients && a !in gone
    ensures forall a :: a in after ==> after[a] == clients[a]
  {
    after := clients;
    var i := 0;
    while i < |gone|
      invariant i <= |gone|
      invariant forall a :: a in after <==> a in clients && a !in gone[..i]
      invariant forall a :: a in after ==> after[a] == clients[a]
    {
      assert gone[..i + 1] == gone[..i] + [gone[i]];
      after := after - {gone[i]};
      i := i + 1;
    }
    assert gone[..i] == gone;
  }

  /** Some element of a non-empty set. */
  method Pick<T>(s: set<T>) returns (x: T)
    requires s != {}
    ensures x in s
  {
    x :| x in s;
  }

  /** The frames a new subscriber is sent by `work` before it hears any
      broadcast: one `add` per stored sticky, in map order; `ser` stands for
      `json.Marshal`. */
  method Replay(stickies: map<int, Sticky>, ser: Sticky -> string)
    returns (order: seq<int>, frames: seq<string>)
    ensures forall k :: k in order <==> k in stickies
    ensures Seqs.Distinct(order)
    ensures |frames| == |order|
    ensures forall i :: 0 <= i < |order| ==>
      order[i] in stickies && frames[i] == Framing.MkEvent("add", ser(stickies[order[i]]))
  {
    var todo := stickies.Keys;
    order, frames := [], [];
    while todo != {}
      invariant todo <= stickies.Keys
      invariant forall k :: k in order <==> k in stickies && k !in todo
      invariant Seqs.Distinct(order)
      invariant |frames| == |order|
      invariant forall i :: 0 <= i < |order| ==>
        order[i] in stickies && frames[i] == Framing.MkEvent("add", ser(stickies[order[i]]))
      decreases |todo|
    {
      var k := Pick(todo);
      order := order + [k];
      frames := frames + [Framing.MkEvent("add", ser(stickies[k]))];
      todo := todo - {k};
    }
  }

  /** The `events` handler and the loop's subscribe case together: the
      stream starts with the keep-alive `hello` frame, then the replay of
      every stored sticky once; the client is registered under its address. */
  method OpenStream(clients: map<Addr, Client>, stickies: map<int, Sticky>, addr: Addr, c: Client, ser: Sticky -> string)
    returns (reg: Registered, order: seq<int>, frames: seq<string>)
    ensures reg.clients.Keys == clients.Keys + {addr} && reg.clients[addr] == c
    ensures forall k :: k in order <==> k in stickies
    ensures Seqs.Distinct(order)
    ensures |frames| == 1 + |order|
    ensures frames[0] == Framing.MkEvent("hello", "\"keep alive\"")
    ensures forall i :: 0 <= i < |order| ==>
      order[i] in stickies && frames[i + 1] == Framing.MkEvent("add", ser(stickies[order[i]]))
  {
    reg := Register(clients, addr, c);
    var replayed;
    order, replayed := Replay(stickies, ser);
    frames := [Framing.MkEvent("hello", "\"keep alive\"")] + replayed;
  }
}

=== FILE: memory_store.dfy ===
/** chalkboard.py's InMemoryBoardStore: an ordered list of notes per board
    and one id counter for the whole store. */
module MemoryStore {
  import opened Wrappers
  import opened Notes
  import Seqs

  /** `boards` is the defaultdict of lists; `lastId` is the instance's `id`,
      the last id handed out (0 before the first). */
  datatype Store = Store(boards: map<BoardId, seq<Sticky>>, lastId: int)

  datatype Issued = Issued(store: Store, id: int)
  datatype Added = Added(store: Store, sticky: Sticky)
  datatype Removed = Removed(store: Store, id: int)
  datatype Updated = Updated(store: Store, sticky: Sticky)

  /** A fresh store: no board holds a note, no id has been handed out, and
      the invariant holds. */
  function Init(): (r: Store)
    ensures forall b :: Board(r, b) == []
    ensures r.lastId == 0 && Wf(r)
  {
    Store(map[], 0)
  }

  /** `boards[board_id]`: a board never written to is empty. */
  function Board(s: Store, b: BoardId): seq<Sticky> {
    if b in s.boards then s.boards[b] else []
  }

  /** The store's invariant: every id is one the counter has already handed
      out, and no id occurs twice, within a board or across boards. */
  ghost predicate Wf(s: Store) {
    && s.lastId >= 0
    && (forall b :: b in s.boards ==> DistinctIds(s.boards[b]))
    && (forall b, n :: b in s.boards && n in IdSet(s.boards[b]) ==> 1 <= n <= s.lastId)
    && (forall b, c :: b in s.boards && c in s.boards && b != c ==> IdSet(s.boards[b]) !! IdSet(s.boards[c]))
  }

  /** `nextId`: bump the counter and hand out its new value. */
  function NextId(s: Store): (r: Issued)
    ensures r.id == s.lastId + 1
    ensures r.store == s.(lastId := r.id)
    ensures Wf(s) ==> forall b :: r.id !in IdSet(Board(s, b))
  {
    Issued(s.(lastId := s.lastId + 1), s.lastId + 1)
  }

  /** `addSticky`: append a record with a fresh id at the end of the board
      and return that record. */
  function AddSticky(s: Store, b: BoardId, note: string, x: int, y: int): (r: Added)
    ensures r.sticky == Sticky(s.lastId + 1, note, x, y)
    ensures Board(r.store, b) == Board(s, b) + [r.sticky]
    ensures forall c :: c != b ==> Board(r.store, c) == Board(s, c)
    ensures r.store.lastId == s.lastId + 1
    ensures Wf(s) ==> r.sticky.id !in IdSet(Board(s, b))
  {
    var issued := NextId(s);
    var sticky := Sticky(issued.id, note, x, y);
    var t := issued.store;
    Added(t.(boards := t.boards[b := Board(t, b) + [sticky]]), sticky)
  }

  /** `removeSticky`: `[0]` of the matches raises IndexError when there is
      none; otherwise `list.remove` drops that record and the id is returned. */
  function RemoveSticky(s: Store, b: BoardId, id: int): (r: Result<Removed>)
    ensures r.Success? <==> HasId(Board(s, b), id)
    ensures r.Failure? ==> r.error == IndexError
    ensures r.Success? ==>
      && r.value.id == id
      && Board(r.value.store, b) == Seqs.RemoveAt(Board(s, b), FirstIndex(Board(s, b), id))
      && (forall c :: c != b ==> Board(r.value.store, c) == Board(s, c))
      && r.value.store.lastId == s.lastId
  {
    var board := Board(s, b);
    var found := WithId(board, id);
    WithIdNonEmpty(board, id);
    if found == [] then Failure(IndexError)
    else
      FirstMatchSplit(board, id);
      Success(Removed(s.(boards := s.boards[b := Seqs.RemoveFirst(board, found[0])]), id))
  }

  /** `updateSticky`: the first match is changed in place (so the list sees
      the change), then `list.remove` of the changed record and `append`
      move it to the end. No match raises IndexError. */
  function UpdateSticky(s: Store, b: BoardId, id: int, note: string, x: int, y: int): (r: Result<Updated>)
    ensures r.Success? <==> HasId(Board(s, b), id)
    ensures r.Failure? ==> r.error == IndexError
    ensures r.Success? ==>
      && r.value.sticky == Sticky(id, note, x, y)
      && Board(r.value.store, b)
         == Seqs.RemoveAt(Board(s, b), FirstIndex(Board(s, b), id)) + [r.value.sticky]
      && |Board(r.value.store, b)| == |Board(s, b)|
      && (forall c :: c != b ==> Board(r.value.store, c) == Board(s, c))
      && r.value.store.lastId == s.lastId
  {
    var board := Board(s, b);
    var found := WithId(board, id);
    WithIdNonEmpty(board, id);
    if found == [] then Failure(IndexError)
    else
      FirstMatchSplit(board, id);
      var i := FirstIndex(board, id);
      var sticky := Restyle(found[0], note, x, y);
      var changed := board[i := sticky];
      ChangedInPlaceIsFirst(board, i, sticky);
      var moved := Seqs.RemoveFirst(changed, sticky) + [sticky];
      Success(Updated(s.(boards := s.boards[b := moved]), sticky))
  }

  /** Removing the changed record hits its own slot: every earlier record
      carries a different id, so none of them equals it. */
  lemma ChangedInPlaceIsFirst(board: seq<Sticky>, i: nat, sticky: Sticky)
    requires i < |board| && board[i].id == sticky.id
    requires forall j :: 0 <= j < i ==> board[j].id != sticky.id
    ensures Seqs.RemoveFirst(board[i := sticky], sticky) == Seqs.RemoveAt(board, i)
  {
    var changed := board[i := sticky];
    assert changed[i] == sticky;
    assert Seqs.IndexOf(changed, sticky) == i;
  }

  /** Adding keeps the invariant. */
  lemma AddKeepsWf(s: Store, b: BoardId, note: string, x: int, y: int)
    requires Wf(s)
    ensures Wf(AddSticky(s, b, note, x, y).store)
  {
    var r := AddSticky(s, b, note, x, y);
    var t := r.store;
    AppendFresh(Board(s, b), r.sticky);
    assert IdSet(Board(t, b)) == IdSet(Board(s, b)) + {r.sticky.id};
    forall c | c in t.boards && c != b
      ensures r.sticky.id !in IdSet(t.boards[c])
    {
      assert t.boards[c] == s.boards[c];
    }
  }

  /** Replacing one board by a list with distinct ids drawn from the old
      board's ids keeps the invariant. */
  lemma ShrinkBoardKeepsWf(s: Store, b: BoardId, nb: seq<Sticky>)
    requires Wf(s)
    requires DistinctIds(nb) && IdSet(nb) <= IdSet(Board(s, b))
    ensures Wf(s.(boards := s.boards[b := nb]))
  {
    var t := s.(boards := s.boards[b := nb]);
    forall c, n | c in t.boards && n in IdSet(t.boards[c]) ensures 1 <= n <= t.lastId {
      if c != b { assert t.boards[c] == s.boards[c]; }
    }
    forall c, d | c in t.boards && d in t.boards && c != d
      ensures IdSet(t.boards[c]) !! IdSet(t.boards[d])
    {
      if c == b {
        assert t.boards[d] == s.boards[d];
        if b !in s.boards { assert IdSet(t.boards[c]) == {}; }
      } else if d == b {
        assert t.boards[c] == s.boards[c];
        if b !in s.boards { assert IdSet(t.boards[d]) == {}; }
      } else {
        assert t.boards[c] == s.boards[c] && t.boards[d] == s.boards[d];
      }
    }
  }

  /** Removing keeps the invariant. */
  lemma RemoveKeepsWf(s: Store, b: BoardId, id: int)
    requires Wf(s)
    ensures RemoveSticky(s, b, id).Success? ==> Wf(RemoveSticky(s, b, id).value.store)
  {
    var r := RemoveSticky(s, b, id);
    if r.Success? {
      var board := Board(s, b);
      RemoveAtDistinct(board, FirstIndex(board, id));
      ShrinkBoardKeepsWf(s, b, Board(r.value.store, b));
      assert r.value.store == s.(boards := s.boards[b := Board(r.value.store, b)]);
    }
  }

  /** Updating keeps the invariant: the board keeps exactly its ids. */
  lemma UpdateKeepsWf(s: Store, b: BoardId, id: int, note: string, x: int, y: int)
    requires Wf(s)
    ensures UpdateSticky(s, b, id, note, x, y).Success? ==> Wf(UpdateSticky(s, b, id, note, x, y).value.store)
  {
    var r := UpdateSticky(s, b, id, note, x, y);
    if r.Success? {
      var board := Board(s, b);
      var i := FirstIndex(board, id);
      var rest := Seqs.RemoveAt(board, i);
      RemoveAtDistinct(board, i);
      AppendFresh(rest, r.value.sticky);
      assert board[i].id in IdSet(board);
      ShrinkBoardKeepsWf(s, b, Board(r.value.store, b));
      assert r.value.store == s.(boards := s.boards[b := Board(r.value.store, b)]);
    }
  }

  /** On a well-formed store, removal is the filter that drops the id: it
      drops exactly one record and keeps the others in order. */
  lemma RemoveIsFilter(s: Store, b: BoardId, id: int)
    requires Wf(s) && HasId(Board(s, b), id)
    ensures Board(RemoveSticky(s, b, id).value.store, b) == WithoutId(Board(s, b), id)
    ensures |Board(RemoveSticky(s, b, id).value.store, b)| == |Board(s, b)| - 1
  {
    assert DistinctIds(Board(s, b));
    DistinctWithId(Board(s, b), id);
  }

  /** On a well-formed store, update keeps every other record in order and
      puts the single changed one last. */
  lemma UpdateIsMoveToEnd(s: Store, b: BoardId, id: int, note: string, x: int, y: int)
    requires Wf(s) && HasId(Board(s, b), id)
    ensures Board(UpdateSticky(s, b, id, note, x, y).value.store, b)
      == WithoutId(Board(s, b), id) + [Sticky(id, note, x, y)]
  {
    assert DistinctIds(Board(s, b));
    DistinctWithId(Board(s, b), id);
  }

  /** One call on the store, as a caller issues it. */
  datatype Op =
    | AddOp(board: BoardId, note: string, x: int, y: int)
    | RemoveOp(board: BoardId, id: int)
    | UpdateOp(board: BoardId, id: int, note: string, x: int, y: int)

  /** The store after one call, and the id it handed out, if any. A call
      that raised leaves the store as it was. */
  datatype Stepped = Stepped(store: Store, issued: Option<int>)

  function Step(s: Store, op: Op): (r: Stepped)
    ensures r.store.lastId == s.lastId + (if r.issued.Some? then 1 else 0)
    ensures r.issued.Some? ==> r.issued.value == s.lastId + 1
  {
    match op
    case AddOp(b, note, x, y) =>
      var a := AddSticky(s, b, note, x, y);
      Stepped(a.store, Some(a.sticky.id))
    case RemoveOp(b, id) =>
      var r := RemoveSticky(s, b, id);
      Stepped(if r.Success? then r.value.store else s, None)
    case UpdateOp(b, id, note, x, y) =>
      var r := UpdateSticky(s, b, id, note, x, y);
      Stepped(if r.Success? then r.value.store else s, None)
  }

  datatype Ran = Ran(store: Store, issued: seq<int>)

  /** A sequence of calls, collecting the ids handed out in order. */
  function Run(s: Store, ops: seq<Op>): Ran
    decreases |ops|
  {
    if ops == [] then Ran(s, [])
    else
      var st := Step(s, ops[0]);
      var rest := Run(st.store, ops[1..]);
      Ran(rest.store, (if st.issued.Some? then [st.issued.value] else []) + rest.issued)
  }

  /** Strictly increasing. */
  ghost predicate Increasing(ids: seq<int>) {
    forall i, j :: 0 <= i < j < |ids| ==> ids[i] < ids[j]
  }

  /** Ids are handed out in strictly increasing order, all above the counter
      at the start and none above the counter at the end: in particular an id
      is never handed out again after its record is removed. */
  lemma {:induction false} RunIssuesFreshIds(s: Store, ops: seq<Op>)
    ensures var r := Run(s, ops);
      && Increasing(r.issued)
      && (forall k :: 0 <= k < |r.issued| ==> s.lastId < r.issued[k] <= r.store.lastId)
      && r.store.lastId >= s.lastId
    decreases |ops|
  {
    if ops != [] {
      var st := Step(s, ops[0]);
      RunIssuesFreshIds(st.store, ops[1..]);
    }
  }

  /** Every call keeps the invariant. */
  lemma {:induction false} RunKeepsWf(s: Store, ops: seq<Op>)
    requires Wf(s)
    ensures Wf(Run(s, ops).store)
    decreases |ops|
  {
    if ops != [] {
      match ops[0] {
        case AddOp(b, note, x, y) => AddKeepsWf(s, b, note, x, y);
        case RemoveOp(b, id) => RemoveKeepsWf(s, b, id);
        case UpdateOp(b, id, note, x, y) => UpdateKeepsWf(s, b, id, note, x, y);
      }
      RunKeepsWf(Step(s, ops[0]).store, ops[1..]);
    }
  }
}

=== FILE: notes.dfy ===
/** The sticky-note record shared by the three stores, and the views of a
    board (an ordered list of notes) that the stores' contracts are stated in. */
module Notes {
  import Seqs

  /** Boards are named by opaque strings. */
  type BoardId = string

  /** One note: `{id, note, x, y}` in chalkboard.py and server.go; server.py
      calls the text field `text`. */
  datatype Sticky = Sticky(id: int, note: string, x: int, y: int)

  /** The three mutations that are announced to subscribers. */
  datatype Action = Add | Update | Remove {
    /** The event name written on the wire. */
    function Name(): string {
      match this
      case Add => "add"
      case Update => "update"
      case Remove => "remove"
    }
  }

  /** What an event carries: a whole record, a bare id, or a plain string. */
  datatype Payload = Record(sticky: Sticky) | StickyId(id: int) | Text(text: string)

  /** One emitted notification. */
  datatype Event = Event(action: Action, data: Payload)

  /** The same note with new text and position, keeping its id. */
  function Restyle(s: Sticky, note: string, x: int, y: int): Sticky {
    s.(note := note, x := x, y := y)
  }

  /** Some note of the board carries `id`. */
  predicate HasId(b: seq<Sticky>, id: int) {
    exists i :: 0 <= i < |b| && b[i].id == id
  }

  /** The set of ids on a board. */
  function IdSet(b: seq<Sticky>): set<int> {
    set i | 0 <= i < |b| :: b[i].id
  }

  /** No two notes of the board share an id. */
  predicate DistinctIds(b: seq<Sticky>) {
    forall i, j :: 0 <= i < j < |b| ==> b[i].id != b[j].id
  }

  /** Position of the first note carrying `id`. */
  function FirstIndex(b: seq<Sticky>, id: int): (i: nat)
    requires HasId(b, id)
    ensures i < |b| && b[i].id == id
    ensures forall j :: 0 <= j < i ==> b[j].id != id
  {
    if b[0].id == id then 0
    else
      assert HasId(b[1..], id) by {
        var k :| 0 <= k < |b| && b[k].id == id;
        assert b[1..][k - 1].id == id;
      }
      1 + FirstIndex(b[1..], id)
  }

  /** The notes carrying `id`, in board order (the comprehension
      `[x for x in board if x['id'] == id]`). */
  function WithId(b: seq<Sticky>, id: int): (r: seq<Sticky>)
    ensures forall k :: 0 <= k < |r| ==> r[k].id == id
    ensures |r| <= |b|
  {
    if b == [] then []
    else (if b[0].id == id then [b[0]] else []) + WithId(b[1..], id)
  }

  /** The notes not carrying `id`, in board order. */
  function WithoutId(b: seq<Sticky>, id: int): (r: seq<Sticky>)
    ensures forall k :: 0 <= k < |r| ==> r[k].id != id
    ensures |r| <= |b|
  {
    if b == [] then []
    else (if b[0].id != id then [b[0]] else []) + WithoutId(b[1..], id)
  }

  /** Both filters distribute over concatenation. */
  lemma WithIdConcat(a: seq<Sticky>, b: seq<Sticky>, id: int)
    ensures WithId(a + b, id) == WithId(a, id) + WithId(b, id)
    ensures WithoutId(a + b, id) == WithoutId(a, id) + WithoutId(b, id)
  {
    KeepConcat(a, b, id);
    DropConcat(a, b, id);
  }

  lemma {:induction false} KeepConcat(a: seq<Sticky>, b: seq<Sticky>, id: int)
    ensures WithId(a + b, id) == WithId(a, id) + WithId(b, id)
  {
    if a == [] {
      assert a + b == b;
    } else {
      var c := a + b;
      var head := if a[0].id == id then [a[0]] else [];
      assert c[0] == a[0] && c[1..] == a[1..] + b;
      assert WithId(c, id) == head + WithId(a[1..] + b, id);
      KeepConcat(a[1..], b, id);
      assert WithId(a, id) == head + WithId(a[1..], id);
      assert head + (WithId(a[1..], id) + WithId(b, id)) == (head + WithId(a[1..], id)) + WithId(b, id);
    }
  }

  lemma {:induction false} DropConcat(a: seq<Sticky>, b: seq<Sticky>, id: int)
    ensures WithoutId(a + b, id) == WithoutId(a, id) + WithoutId(b, id)
  {
    if a == [] {
      assert a + b == b;
    } else {
      var c := a + b;
      var head := if a[0].id != id then [a[0]] else [];
      assert c[0] == a[0] && c[1..] == a[1..] + b;
      assert WithoutId(c, id) == head + WithoutId(a[1..] + b, id);
      DropConcat(a[1..], b, id);
      assert WithoutId(a, id) == head + WithoutId(a[1..], id);
      assert head + (WithoutId(a[1..], id) + WithoutId(b, id)) == (head + WithoutId(a[1..], id)) + WithoutId(b, id);
    }
  }

  /** A board without `id` is left whole by both filters. */
  lemma {:induction false} NoIdFilters(b: seq<Sticky>, id: int)
    requires !HasId(b, id)
    ensures WithId(b, id) == []
    ensures WithoutId(b, id) == b
  {
    if b != [] {
      assert forall k :: 0 <= k < |b[1..]| ==> b[1..][k] == b[k + 1];
      NoIdFilters(b[1..], id);
    }
  }

  /** The filter finds something exactly when the board has the id. */
  lemma {:induction false} WithIdNonEmpty(b: seq<Sticky>, id: int)
    ensures HasId(b, id) <==> WithId(b, id) != []
  {
    if HasId(b, id) {
      var i := FirstIndex(b, id);
      assert b == b[..i] + [b[i]] + b[i + 1..];
      WithIdConcat(b[..i] + [b[i]], b[i + 1..], id);
      WithIdConcat(b[..i], [b[i]], id);
    } else {
      NoIdFilters(b, id);
    }
  }

  /** Splitting the board at the first note carrying `id`: that note heads
      the filter, and cutting it out shortens the filter by exactly it. */
  lemma {:induction false} FirstMatchSplit(b: seq<Sticky>, id: int)
    requires HasId(b, id)
    ensures var i := FirstIndex(b, id);
      && WithId(b, id) == [b[i]] + WithId(Seqs.RemoveAt(b, i), id)
      && WithoutId(Seqs.RemoveAt(b, i), id) == WithoutId(b, id)
      && Seqs.RemoveFirst(b, b[i]) == Seqs.RemoveAt(b, i)
  {
    var i := FirstIndex(b, id);
    var pre, post := b[..i], b[i + 1..];
    assert forall k :: 0 <= k < |pre| ==> pre[k] == b[k];
    assert b == pre + [b[i]] + post;
    assert Seqs.RemoveAt(b, i) == pre + post;
    SplitAround(pre, b[i], post, id);
    RemoveFirstAtFirstMatch(b, id);
  }

  lemma {:induction false} SplitAround(pre: seq<Sticky>, x: Sticky, post: seq<Sticky>, id: int)
    requires !HasId(pre, id) && x.id == id
    ensures WithId(pre + [x] + post, id) == [x] + WithId(pre + post, id)
    ensures WithoutId(pre + [x] + post, id) == WithoutId(pre + post, id)
  {
    NoIdFilters(pre, id);
    assert WithId([x], id) == [x] && WithoutId([x], id) == [];
    WithIdConcat(pre, [x], id);
    assert WithId(pre + [x], id) == [x] && WithoutId(pre + [x], id) == WithoutId(pre, id);
    WithIdConcat(pre + [x], post, id);
    WithIdConcat(pre, post, id);
    assert WithId(pre + post, id) == WithId(post, id);
  }

  lemma RemoveFirstAtFirstMatch(b: seq<Sticky>, id: int)
    requires HasId(b, id)
    ensures Seqs.RemoveFirst(b, b[FirstIndex(b, id)]) == Seqs.RemoveAt(b, FirstIndex(b, id))
  {
    var i := FirstIndex(b, id);
    assert b[i] in b;
    assert Seqs.IndexOf(b, b[i]) == i;
  }

  /** On a board whose ids are distinct the filter finds at most one note. */
  lemma {:induction false} DistinctWithId(b: seq<Sticky>, id: int)
    requires DistinctIds(b)
    ensures HasId(b, id) ==> WithId(b, id) == [b[FirstIndex(b, id)]]
    ensures HasId(b, id) ==> WithoutId(b, id) == Seqs.RemoveAt(b, FirstIndex(b, id))
    ensures !HasId(b, id) ==> WithId(b, id) == [] && WithoutId(b, id) == b
  {
    if HasId(b, id) {
      var i := FirstIndex(b, id);
      FirstMatchSplit(b, id);
      var rest := Seqs.RemoveAt(b, i);
      NoIdFilters(rest, id);
    } else {
      NoIdFilters(b, id);
    }
  }

  /** Appending a note with a fresh id keeps the ids distinct. */
  lemma {:induction false} AppendFresh(b: seq<Sticky>, s: Sticky)
    requires DistinctIds(b) && s.id !in IdSet(b)
    ensures DistinctIds(b + [s])
    ensures IdSet(b + [s]) == IdSet(b) + {s.id}
  {
    var c := b + [s];
    forall i, j | 0 <= i < j < |c| ensures c[i].id != c[j].id {
      if j == |b| { assert c[i].id in IdSet(b); }
    }
    assert forall i :: 0 <= i < |b| ==> c[i] == b[i];
    assert c[|b|] == s;
  }

  /** Cutting one note out keeps the ids distinct and drops exactly its id. */
  lemma {:induction false} RemoveAtDistinct(b: seq<Sticky>, i: nat)
    requires DistinctIds(b) && i < |b|
    ensures DistinctIds(Seqs.RemoveAt(b, i))
    ensures IdSet(Seqs.RemoveAt(b, i)) == IdSet(b) - {b[i].id}
  {
    var r := Seqs.RemoveAt(b, i);
    forall x | x in IdSet(b) - {b[i].id} ensures x in IdSet(r) {
      var k :| 0 <= k < |b| && b[k].id == x;
      if k < i { assert r[k].id == x; } else { assert r[k - 1].id == x; }
    }
    forall x | x in IdSet(r) ensures x in IdSet(b) - {b[i].id} {
      var k :| 0 <= k < |r| && r[k].id == x;
      if k < i { assert b[k].id == x; } else { assert b[k + 1].id == x; }
    }
  }
}

=== FILE: readiness.dfy ===
/** The readiness queue of chalkboard.py's DatabaseBoardStore
    (`queue`, `runPending`, `attachPool`): operations issued before a
    connection pool exists wait in a FIFO list; attaching a pool replays
    them in order and empties the list; afterwards every operation goes to
    the pool at once.

    The pool is abstract: a dispatch records which pool was called with which
    operation, and which caller's placeholder (a Deferred in the source) the
    pool's result will resolve. */
module Readiness {
  import opened Wrappers

  /** A caller's placeholder, numbered in the order they were handed out. */
  type Handle = nat

  /** Which pool object was attached. */
  type PoolId = nat

  /** The pool method named by `queue(name, args)`. */
  datatype OpName = RunQuery | RunInteraction

  /** An operation: a pool method and its (uninterpreted) arguments. */
  datatype Op = Op(name: OpName, args: seq<string>)

  /** An entry of `pending`: the placeholder and the operation. */
  datatype Pending = Pending(handle: Handle, op: Op)

  /** One call on the pool, and the placeholder its result goes to. */
  datatype Dispatch = Dispatch(pool: PoolId, op: Op, resolves: Handle)

  /** `pool` (None until attached), `pending`, the calls made on pools so
      far, and the next placeholder number. */
  datatype Queue = Queue(pool: Option<PoolId>, pending: seq<Pending>, dispatched: seq<Dispatch>, nextHandle: nat)

  datatype Queued = Queued(queue: Queue, handle: Handle)

  /** A new store: no pool and nothing pending. */
  function Init(): Queue {
    Queue(None, [], [], 0)
  }

  /** The calls made for `pending` on pool `p`, each resolving its own
      placeholder. */
  function Dispatches(p: PoolId, pending: seq<Pending>): (r: seq<Dispatch>)
    ensures |r| == |pending|
    ensures forall i :: 0 <= i < |r| ==> r[i] == Dispatch(p, pending[i].op, pending[i].handle)
  {
    if pending == [] then [] else [Dispatch(p, pending[0].op, pending[0].handle)] + Dispatches(p, pending[1..])
  }

  /** `runPending`: without a pool, nothing; with one, call it for every
      pending operation in FIFO order, then empty `pending`. */
  function RunPending(q: Queue): (r: Queue)
    ensures q.pool.None? || q.pending == [] ==> r == q
    ensures q.pool.Some? ==>
      && r.pending == []
      && r.dispatched == q.dispatched + Dispatches(q.pool.value, q.pending)
    ensures r.pool == q.pool && r.nextHandle == q.nextHandle
  {
    match q.pool
    case None => q
    case Some(p) =>
      assert q.pending == [] ==> q.dispatched + Dispatches(p, q.pending) == q.dispatched;
      q.(pending := [], dispatched := q.dispatched + Dispatches(p, q.pending))
  }

  /** `queue(name, args)`: a new placeholder, appended to `pending`, then
      `runPending`. */
  function Enqueue(q: Queue, op: Op): (r: Queued)
    ensures r.handle == q.nextHandle && r.queue.nextHandle == q.nextHandle + 1
    ensures q.pool.None? ==>
      r.queue.pending == q.pending + [Pending(r.handle, op)] && r.queue.dispatched == q.dispatched
    ensures q.pool.Some? && q.pending == [] ==>
      r.queue.pending == [] && r.queue.dispatched == q.dispatched + [Dispatch(q.pool.value, op, r.handle)]
  {
    var h := q.nextHandle;
    var appended := q.(pending := q.pending + [Pending(h, op)], nextHandle := h + 1);
    Queued(RunPending(appended), h)
  }

  /** `runQuery(*args)`: queues a call of the pool's `runQuery` with the
      same arguments. */
  function RunQueryOp(q: Queue, args: seq<string>): (r: Queued)
    ensures r.handle == q.nextHandle && r.queue.nextHandle == q.nextHandle + 1
    ensures q.pool.None? ==>
      r.queue.pending == q.pending + [Pending(r.handle, Op(RunQuery, args))]
    ensures q.pool.Some? && q.pending == [] ==>
      r.queue.dispatched == q.dispatched + [Dispatch(q.pool.value, Op(RunQuery, args), r.handle)]
  {
    Enqueue(q, Op(RunQuery, args))
  }

  /** `runInteraction(*args)`: queues a call of the pool's `runInteraction`
      with the same arguments. */
  function RunInteractionOp(q: Queue, args: seq<string>): (r: Queued)
    ensures r.handle == q.nextHandle && r.queue.nextHandle == q.nextHandle + 1
    ensures q.pool.None? ==>
      r.queue.pending == q.pending + [Pending(r.handle, Op(RunInteraction, args))]
    ensures q.pool.Some? && q.pending == [] ==>
      r.queue.dispatched == q.dispatched + [Dispatch(q.pool.value, Op(RunInteraction, args), r.handle)]
  {
    Enqueue(q, Op(RunInteraction, args))
  }

  /** `attachPool(pool)`: remember the pool, then `runPending`. The pool may
      be None. The set-up chain at chalkboard.py:45 turns a failure of the
      set-up interaction itself (the database cannot be opened, or the commit
      fails) into None, since `log.err` returns nothing, and hands that on to
      `attachPool`. A failing CREATE TABLE is caught inside the interaction
      and the real pool is attached. With None nothing is replayed and
      everything stays pending. */
  function AttachPool(q: Queue, p: Option<PoolId>): (r: Queue)
    ensures r.pool == p && r.nextHandle == q.nextHandle
    ensures p.Some? ==> r.pending == [] && r.dispatched == q.dispatched + Dispatches(p.value, q.pending)
    ensures p.None? ==> r.pending == q.pending && r.dispatched == q.dispatched
  {
    RunPending(q.(pool := p))
  }

  /** A second attachment only swaps the pool for later calls: nothing that
      was already replayed is replayed again. */
  lemma ReattachDoesNotReplay(q: Queue, p1: PoolId, p2: PoolId)
    ensures AttachPool(AttachPool(q, Some(p1)), Some(p2)).dispatched == AttachPool(q, Some(p1)).dispatched
    ensures AttachPool(AttachPool(q, Some(p1)), Some(p2)).pool == Some(p2)
  {
    assert Dispatches(p2, []) == [];
  }

  /** One call a client of the store can make. */
  datatype Cmd = Submit(op: Op) | Attach(pool: Option<PoolId>) | Drain

  function Step(q: Queue, c: Cmd): Queue {
    match c
    case Submit(op) => Enqueue(q, op).queue
    case Attach(p) => AttachPool(q, p)
    case Drain => RunPending(q)
  }

  function Exec(q: Queue, cmds: seq<Cmd>): Queue
    decreases |cmds|
  {
    if cmds == [] then q else Exec(Step(q, cmds[0]), cmds[1..])
  }

  /** The operations submitted by `cmds`, in order. */
  function Submitted(cmds: seq<Cmd>): (r: seq<Op>)
    ensures |r| <= |cmds|
  {
    if cmds == [] then []
    else (if cmds[0].Submit? then [cmds[0].op] else []) + Submitted(cmds[1..])
  }

  /** The operations of a run of calls on a pool, in order. */
  function DispatchedOps(ds: seq<Dispatch>): (r: seq<Op>)
    ensures |r| == |ds|
    ensures forall k :: 0 <= k < |ds| ==> r[k] == ds[k].op
  {
    seq(|ds|, k requires 0 <= k < |ds| => ds[k].op)
  }

  /** The operations of the waiting entries, in order. */
  function PendingOps(ps: seq<Pending>): (r: seq<Op>)
    ensures |r| == |ps|
    ensures forall k :: 0 <= k < |ps| ==> r[k] == ps[k].op
  {
    seq(|ps|, k requires 0 <= k < |ps| => ps[k].op)
  }

  /** Every operation the queue has taken, in order: those already sent to a
      pool, then those still waiting. */
  function Taken(q: Queue): seq<Op> {
    DispatchedOps(q.dispatched) + PendingOps(q.pending)
  }

  /** The queue's invariant: once a pool is attached nothing waits; the k-th
      placeholder handed out belongs to the k-th operation taken, and every
      call on a pool resolves its own operation's placeholder. */
  ghost predicate Inv(q: Queue) {
    && (q.pool.Some? ==> q.pending == [])
    && Numbered(q)
  }

  /** The placeholder numbering half of `Inv`. */
  ghost predicate Numbered(q: Queue) {
    && |q.dispatched| + |q.pending| == q.nextHandle
    && (forall k :: 0 <= k < |q.dispatched| ==> q.dispatched[k].resolves == k)
    && (forall k :: 0 <= k < |q.pending| ==> q.pending[k].handle == |q.dispatched| + k)
  }

  /** Replaying the waiting entries moves their operations, in order, from
      the waiting part to the sent part. */
  lemma ReplayKeepsOps(ds: seq<Dispatch>, p: PoolId, ps: seq<Pending>)
    ensures DispatchedOps(ds + Dispatches(p, ps)) == DispatchedOps(ds) + PendingOps(ps)
  {
  }

  /** Submitting before a pool is attached: the operation waits last. */
  lemma SubmitWaiting(q: Queue, op: Op)
    requires Inv(q) && q.pool.None?
    ensures Inv(Enqueue(q, op).queue)
    ensures Taken(Enqueue(q, op).queue) == Taken(q) + [op]
  {
    var r := Enqueue(q, op).queue;
    assert PendingOps(r.pending) == PendingOps(q.pending) + [op];
  }

  /** Submitting once a pool is attached: the operation is sent at once and
      resolves the next placeholder. */
  lemma SubmitAttached(q: Queue, op: Op)
    requires Inv(q) && q.pool.Some?
    ensures Inv(Enqueue(q, op).queue)
    ensures Taken(Enqueue(q, op).queue) == Taken(q) + [op]
  {
    var r := Enqueue(q, op).queue;
    assert DispatchedOps(r.dispatched) == DispatchedOps(q.dispatched) + [op];
    assert PendingOps(q.pending) == [] && PendingOps(r.pending) == [];
  }

  /** Draining, directly or by attaching a pool, keeps the taken operations. */
  lemma DrainKeepsOps(q: Queue)
    requires Numbered(q) && q.pool.Some?
    ensures Inv(RunPending(q))
    ensures Taken(RunPending(q)) == Taken(q)
  {
    var r := RunPending(q);
    ReplayKeepsOps(q.dispatched, q.pool.value, q.pending);
    assert PendingOps(r.pending) == [];
  }

  /** One call keeps the invariant and adds to the taken operations exactly
      the submitted one, at the end. */
  lemma StepKeepsOrder(q: Queue, c: Cmd)
    requires Inv(q)
    ensures Inv(Step(q, c))
    ensures Taken(Step(q, c)) == Taken(q) + (if c.Submit? then [c.op] else [])
  {
    match c {
      case Submit(op) =>
        if q.pool.None? { SubmitWaiting(q, op); } else { SubmitAttached(q, op); }
      case Attach(p) =>
        var q' := q.(pool := p);
        assert Taken(q') == Taken(q);
        if p.Some? { DrainKeepsOps(q'); }
        assert Taken(q) + [] == Taken(q);
      case Drain =>
        if q.pool.Some? { DrainKeepsOps(q); }
        assert Taken(q) + [] == Taken(q);
    }
  }

  /** Any run keeps the invariant, loses and reorders nothing: the taken
      operations grow by exactly the submitted ones, in submission order. */
  lemma {:induction false} ExecKeepsOrder(q: Queue, cmds: seq<Cmd>)
    requires Inv(q)
    ensures Inv(Exec(q, cmds))
    ensures Taken(Exec(q, cmds)) == Taken(q) + Submitted(cmds)
    decreases |cmds|
  {
    if cmds != [] {
      StepKeepsOrder(q, cmds[0]);
      ExecKeepsOrder(Step(q, cmds[0]), cmds[1..]);
      var head := if cmds[0].Submit? then [cmds[0].op] else [];
      assert Submitted(cmds) == head + Submitted(cmds[1..]);
      assert Taken(q) + head + Submitted(cmds[1..]) == Taken(q) + (head + Submitted(cmds[1..]));
    }
  }

  /** Reading the taken operations back: the k-th call on a pool carries the
      k-th operation, and the waiting ones follow. */
  lemma TakenByIndex(q: Queue, ops: seq<Op>)
    requires Taken(q) == ops
    ensures |q.dispatched| + |q.pending| == |ops|
    ensures forall k :: 0 <= k < |q.dispatched| ==> q.dispatched[k].op == ops[k]
    ensures forall k :: 0 <= k < |q.pending| ==> q.pending[k].op == ops[|q.dispatched| + k]
  {
    forall k | 0 <= k < |q.dispatched| ensures q.dispatched[k].op == ops[k] {
      assert Taken(q)[k] == q.dispatched[k].op;
    }
    forall k | 0 <= k < |q.pending| ensures q.pending[k].op == ops[|q.dispatched| + k] {
      assert Taken(q)[|q.dispatched| + k] == q.pending[k].op;
    }
  }

  /** From a new store: the pool sees the submitted operations in submission
      order, each call resolves the placeholder handed to that operation's
      caller (the k-th placeholder is number k), and once a pool is attached
      nothing is left waiting. */
  lemma RunFromInit(cmds: seq<Cmd>)
    ensures var q := Exec(Init(), cmds);
      && q.nextHandle == |q.dispatched| + |q.pending| == |Submitted(cmds)|
      && (forall k :: 0 <= k < |q.dispatched| ==>
            q.dispatched[k].op == Submitted(cmds)[k] && q.dispatched[k].resolves == k)
      && (forall k :: 0 <= k < |q.pending| ==>
            q.pending[k].op == Submitted(cmds)[|q.dispatched| + k] && q.pending[k].handle == |q.dispatched| + k)
      && (q.pool.Some? ==> q.pending == [])
  {
    ExecFromInit(cmds);
    ReadBack(Exec(Init(), cmds), Submitted(cmds));
  }

  /** `Inv` and `Taken` read back position by position. */
  lemma ReadBack(q: Queue, ops: seq<Op>)
    requires Inv(q) && Taken(q) == ops
    ensures q.nextHandle == |q.dispatched| + |q.pending| == |ops|
    ensures forall k :: 0 <= k < |q.dispatched| ==>
      q.dispatched[k].op == ops[k] && q.dispatched[k].resolves == k
    ensures forall k :: 0 <= k < |q.pending| ==>
      q.pending[k].op == ops[|q.dispatched| + k] && q.pending[k].handle == |q.dispatched| + k
    ensures q.pool.Some? ==> q.pending == []
  {
    TakenByIndex(q, ops);
  }

  /** From a new store the invariant holds and the taken operations are the
      submitted ones. */
  lemma ExecFromInit(cmds: seq<Cmd>)
    ensures Inv(Exec(Init(), cmds))
    ensures Taken(Exec(Init(), cmds)) == Submitted(cmds)
  {
    assert Inv(Init()) && Taken(Init()) == [];
    ExecKeepsOrder(Init(), cmds);
    assert [] + Submitted(cmds) == Submitted(cmds);
  }

  /** Without a pool, and with no pool ever attached, a run only queues:
      no call reaches any pool and the submitted operations wait, in order,
      behind those already waiting. */
  lemma {:induction false} DetachedNeverDispatches(q: Queue, cmds: seq<Cmd>)
    requires q.pool.None?
    requires forall i :: 0 <= i < |cmds| ==> !(cmds[i].Attach? && cmds[i].pool.Some?)
    ensures Exec(q, cmds).pool.None?
    ensures Exec(q, cmds).dispatched == q.dispatched
    ensures PendingOps(Exec(q, cmds).pending) == PendingOps(q.pending) + Submitted(cmds)
    decreases |cmds|
  {
    if cmds != [] {
      var q' := Step(q, cmds[0]);
      var head := if cmds[0].Submit? then [cmds[0].op] else [];
      assert PendingOps(q'.pending) == PendingOps(q.pending) + head;
      DetachedNeverDispatches(q', cmds[1..]);
      assert Submitted(cmds) == head + Submitted(cmds[1..]);
      assert PendingOps(q.pending) + head + Submitted(cmds[1..]) == PendingOps(q.pending) + (head + Submitted(cmds[1..]));
    }
  }

  /** When the set-up interaction itself fails, `main` attaches None. From
      then on, until some real pool is attached, every operation waits and
      none is ever sent, so its caller's placeholder is never resolved. */
  lemma FailedSetupStalls(cmds: seq<Cmd>)
    requires forall i :: 0 <= i < |cmds| ==> !(cmds[i].Attach? && cmds[i].pool.Some?)
    ensures var q := Exec(Init(), [Attach(None)] + cmds);
      && q.pool.None? && q.dispatched == []
      && PendingOps(q.pending) == Submitted(cmds)
  {
    var all := [Attach(None)] + cmds;
    assert all[1..] == cmds;
    assert Step(Init(), Attach(None)) == Init();
    DetachedNeverDispatches(Init(), cmds);
    assert [] + Submitted(cmds) == Submitted(cmds);
  }

  // ---------------------------------------------------------------------
  // `runPending` as written: the callback `lambda x: d.callback(x)` reads
  // the loop variable `d` when the pool's result arrives, not when the
  // callback is made. With a pool whose results arrive later (a thread pool
  // such as Twisted's ConnectionPool), every call of one replay resolves the
  // placeholder of the last pending entry.

  /** The calls of one replay as written, all routed to the last placeholder. */
  function DispatchesAsWritten(p: PoolId, pending: seq<Pending>): (r: seq<Dispatch>)
    requires pending != []
    ensures |r| == |pending|
    ensures forall i :: 0 <= i < |r| ==> r[i] == Dispatch(p, pending[i].op, pending[|pending| - 1].handle)
  {
    var last := pending[|pending| - 1].handle;
    seq(|pending|, i requires 0 <= i < |pending| => Dispatch(p, pending[i].op, last))
  }

  function RunPendingAsWritten(q: Queue): (r: Queue)
    ensures r.pool == q.pool && r.nextHandle == q.nextHandle
  {
    match q.pool
    case None => q
    case Some(p) =>
      if q.pending == [] then q
      else q.(pending := [], dispatched := q.dispatched + DispatchesAsWritten(p, q.pending))
  }

  function AttachPoolAsWritten(q: Queue, p: Option<PoolId>): (r: Queue)
    ensures r.pool == p
  {
    RunPendingAsWritten(q.(pool := p))
  }

  /** With at most one entry pending (every `queue` call after attachment),
      the late binding is harmless: the code behaves as intended. */
  lemma AsWrittenAgreesOnOne(q: Queue)
    requires |q.pending| <= 1
    ensures RunPendingAsWritten(q) == RunPending(q)
  {
    if q.pool.Some? && |q.pending| == 1 {
      assert DispatchesAsWritten(q.pool.value, q.pending) == Dispatches(q.pool.value, q.pending);
    }
  }

  /** Two queries issued before the pool is attached: as written, both
      results go to the second caller's placeholder and the first caller's
      placeholder is never resolved; the intended replay resolves each. */
  lemma LateBindingLosesFirstResult(a: Op, b: Op, p: PoolId)
    ensures var q := Enqueue(Enqueue(Init(), a).queue, b).queue;
      && AttachPoolAsWritten(q, Some(p)).dispatched == [Dispatch(p, a, 1), Dispatch(p, b, 1)]
      && AttachPool(q, Some(p)).dispatched == [Dispatch(p, a, 0), Dispatch(p, b, 1)]
  {
    var q := Enqueue(Enqueue(Init(), a).queue, b).queue;
    assert q.pending == [Pending(0, a), Pending(1, b)];
    assert AttachPoolAsWritten(q, Some(p)).dispatched == DispatchesAsWritten(p, q.pending);
    assert AttachPool(q, Some(p)).dispatched == Dispatches(p, q.pending);
  }
}

=== FILE: rows.dfy ===
/** The SQL side of chalkboard.py's DatabaseBoardStore that does not need a
    database: filling the `%(param)s` slots of a query template with the
    driver's parameter marker (`formatRawQuery`), and turning result rows of
    the `sticky` table into sticky records (`_gotOneRow`, `_gotStickies`). */
module Rows {
  import opened Wrappers
  import opened Notes

  // ---------------------------------------------------------------------
  // Query templates

  /** The one slot a query template uses: Python's named `%` directive. */
  const ParamSlot: string := "%(param)s"

  /** `r` with `pre` in front of its text, or the same failure. */
  function Prefixed(pre: string, r: Result<string>): Result<string> {
    match r
    case Success(v) => Success(pre + v)
    case Failure(e) => Failure(e)
  }

  /** `qry % {'param': ps}`: `%%` stands for one `%`, `%(param)s` for the
      marker `ps`; any other use of `%` is an error. */
  function Format(q: string, ps: string): (r: Result<string>)
    ensures r.Failure? ==> r.error == FormatError
    ensures r.Success? ==> forall c :: c in r.value ==> c in q || c in ps
    decreases |q|
  {
    if q == [] then Success([])
    else if q[0] != '%' then Prefixed([q[0]], Format(q[1..], ps))
    else if |q| >= 2 && q[1] == '%' then Prefixed("%", Format(q[2..], ps))
    else if |q| >= |ParamSlot| && q[..|ParamSlot|] == ParamSlot then Prefixed(ps, Format(q[|ParamSlot|..], ps))
    else Failure(FormatError)
  }

  lemma PrefixedTwice(a: string, b: string, r: Result<string>)
    ensures Prefixed(a, Prefixed(b, r)) == Prefixed(a + b, r)
  {
    if r.Success? {
      assert a + (b + r.value) == (a + b) + r.value;
    }
  }

  /** Text without `%` passes through the formatter unchanged. */
  lemma {:induction false} FormatPlainPrefix(a: string, b: string, ps: string)
    requires '%' !in a
    ensures Format(a + b, ps) == Prefixed(a, Format(b, ps))
    decreases |a|
  {
    if a == [] {
      assert a + b == b;
      assert Prefixed([], Format(b, ps)) == Format(b, ps) by {
        if Format(b, ps).Success? {
          assert [] + Format(b, ps).value == Format(b, ps).value;
        }
      }
    } else {
      assert (a + b)[0] == a[0];
      assert (a + b)[1..] == a[1..] + b;
      FormatPlainPrefix(a[1..], b, ps);
      PrefixedTwice([a[0]], a[1..], Format(b, ps));
      assert [a[0]] + a[1..] == a;
    }
  }

  /** A lone `%` at the end of otherwise plain text is an incomplete
      directive. */
  lemma TrailingPercentFails(q: string, ps: string)
    requires '%' !in q
    ensures Format(q + "%", ps) == Failure(FormatError)
  {
    FormatPlainPrefix(q, "%", ps);
  }

  /** A query without `%` is sent as it is. */
  lemma FormatPlain(q: string, ps: string)
    requires '%' !in q
    ensures Format(q, ps) == Success(q)
  {
    FormatPlainPrefix(q, [], ps);
    assert q + [] == q;
  }

  /** A slot becomes the marker. */
  lemma FormatSlot(b: string, ps: string)
    ensures Format(ParamSlot + b, ps) == Prefixed(ps, Format(b, ps))
  {
    var q := ParamSlot + b;
    assert q[0] == '%' && q[1] == '(';
    assert q[..|ParamSlot|] == ParamSlot;
    assert q[|ParamSlot|..] == b;
  }

  /** `parts` with `sep` between neighbours. */
  function Join(parts: seq<string>, sep: string): string
    decreases |parts|
  {
    if parts == [] then []
    else if |parts| == 1 then parts[0]
    else parts[0] + sep + Join(parts[1..], sep)
  }

  /** A query template: the literal text between its slots. */
  datatype Template = Template(parts: seq<string>)

  /** The template as the source writes it. */
  function Text(t: Template): string {
    Join(t.parts, ParamSlot)
  }

  /** The number of parameters the query takes. */
  function Slots(t: Template): nat {
    if t.parts == [] then 0 else |t.parts| - 1
  }

  /** No literal text of the template holds a `%`. */
  predicate Plain(t: Template) {
    forall i :: 0 <= i < |t.parts| ==> '%' !in t.parts[i]
  }

  /** Filling a plain template puts the marker in every slot and leaves the
      literal text alone. */
  lemma {:induction false} FillTemplate(parts: seq<string>, ps: string)
    requires forall i :: 0 <= i < |parts| ==> '%' !in parts[i]
    ensures Format(Join(parts, ParamSlot), ps) == Success(Join(parts, ps))
    decreases |parts|
  {
    if parts == [] {
    } else if |parts| == 1 {
      FormatPlain(parts[0], ps);
    } else {
      var rest := Join(parts[1..], ParamSlot);
      assert Join(parts, ParamSlot) == parts[0] + (ParamSlot + rest);
      FormatPlainPrefix(parts[0], ParamSlot + rest, ps);
      FormatSlot(rest, ps);
      FillTemplate(parts[1..], ps);
      PrefixedTwice(parts[0], ps, Format(rest, ps));
      assert Join(parts, ps) == parts[0] + ps + Join(parts[1..], ps);
    }
  }

  /** `formatRawQuery`, seen through a template. */
  function FormatRawQuery(t: Template, ps: string): (r: Result<string>)
    ensures Plain(t) ==> r == Success(Join(t.parts, ps))
  {
    if Plain(t) then FillTemplate(t.parts, ps); Format(Text(t), ps)
    else Format(Text(t), ps)
  }

  /** `%` doubled, so that the formatter gives the text back. */
  function Escape(s: string): string {
    if s == [] then [] else (if s[0] == '%' then "%%" else [s[0]]) + Escape(s[1..])
  }

  /** Escaping is undone by the formatter, whatever the marker. */
  lemma {:induction false} EscapeRoundTrip(s: string, ps: string)
    ensures Format(Escape(s), ps) == Success(s)
  {
    if s != [] {
      var tail := Escape(s[1..]);
      EscapeRoundTrip(s[1..], ps);
      if s[0] == '%' {
        var e := "%%" + tail;
        assert Escape(s) == e;
        assert e[0] == '%' && e[1] == '%' && e[2..] == tail;
      } else {
        var e := [s[0]] + tail;
        assert Escape(s) == e;
        assert e[0] == s[0] && e[1..] == tail;
      }
      assert s == [s[0]] + s[1..];
    }
  }

  /** The statements the store sends, as templates (whitespace folded). */
  const SelectBoard := Template(["select * from sticky " + "where board_id = ", " order by updated"])
  const SelectOne := Template(["select * from sticky " + "where id=", " and board_id=", ""])
  const InsertOne := Template(["insert into sticky " + "(board_id, note, " + "x, y) values(", ", ", ", ", ", ", ")"])
  const UpdateOne := Template(["update sticky set note=", ", x=", ", y=", ", updated=current_timestamp " + "where board_id=", " and id=", ""])
  const DeleteOne := Template(["delete from sticky where board_id=", " and id=", ""])

  lemma SelectsArePlain()
    ensures Plain(SelectBoard) && Plain(SelectOne)
  {
    SelectBoardIsPlain();
    SelectOneIsPlain();
  }

  lemma SelectBoardIsPlain()
    ensures Plain(SelectBoard)
  {
    assert '%' !in "select * from sticky " && '%' !in "where board_id = ";
    assert '%' !in SelectBoard.parts[1];
  }

  lemma SelectOneIsPlain()
    ensures Plain(SelectOne)
  {
    assert '%' !in "select * from sticky " && '%' !in "where id=";
    forall i | 0 <= i < |SelectOne.parts| ensures '%' !in SelectOne.parts[i] {
      if i == 0 {} else if i == 1 {} else {}
    }
  }

  lemma InsertIsPlain()
    ensures Plain(InsertOne)
  {
    InsertHeadIsPlain();
    forall i | 0 <= i < |InsertOne.parts| ensures '%' !in InsertOne.parts[i] {
      if i == 0 {} else if i == 1 {} else if i == 2 {} else if i == 3 {} else {}
    }
  }

  lemma InsertHeadIsPlain()
    ensures '%' !in InsertOne.parts[0]
  {
    assert '%' !in "insert into sticky ";
    assert '%' !in "(board_id, note, ";
    assert '%' !in "x, y) values(";
  }

  lemma UpdateIsPlain()
    ensures Plain(UpdateOne)
  {
    UpdateHeadIsPlain();
    UpdateTailIsPlain();
    forall i | 0 <= i < |UpdateOne.parts| ensures '%' !in UpdateOne.parts[i] {
      if i == 0 {} else if i == 1 {} else if i == 2 {} else if i == 3 {} else if i == 4 {} else {}
    }
  }

  lemma UpdateHeadIsPlain()
    ensures '%' !in UpdateOne.parts[0] && '%' !in UpdateOne.parts[1] && '%' !in UpdateOne.parts[2]
  {
  }

  lemma UpdateTailIsPlain()
    ensures '%' !in UpdateOne.parts[3] && '%' !in UpdateOne.parts[4] && '%' !in UpdateOne.parts[5]
  {
  }

  lemma DeleteIsPlain()
    ensures Plain(DeleteOne)
  {
    forall i | 0 <= i < |DeleteOne.parts| ensures '%' !in DeleteOne.parts[i] {
      if i == 0 {} else if i == 1 {} else {}
    }
  }

  /** Every statement the store sends formats without error, and has exactly
      as many markers as the argument tuple it is run with. */
  lemma StoreQueriesFill(ps: string)
    ensures FormatRawQuery(SelectBoard, ps).Success? && Slots(SelectBoard) == 1
    ensures FormatRawQuery(SelectOne, ps).Success? && Slots(SelectOne) == 2
    ensures FormatRawQuery(InsertOne, ps).Success? && Slots(InsertOne) == 4
    ensures FormatRawQuery(UpdateOne, ps).Success? && Slots(UpdateOne) == 5
    ensures FormatRawQuery(DeleteOne, ps).Success? && Slots(DeleteOne) == 2
  {
    SelectsArePlain();
    InsertIsPlain();
    UpdateIsPlain();
    DeleteIsPlain();
  }

  // ---------------------------------------------------------------------
  // Result rows

  /** A column value as the driver returns it. */
  datatype Value = IntVal(i: int) | TextVal(t: string) | TimeVal(stamp: int) | NullVal

  /** The dictionary `_gotOneRow` builds. */
  datatype RowRecord = RowRecord(id: Value, note: Value, x: Value, y: Value)

  /** `_gotOneRow(rows)`: the first row, unpacked into the six columns of the
      `sticky` table (id, board_id, updated, note, x, y); board and time are
      dropped. No row is an IndexError, a row of another width a ValueError. */
  function GotOneRow(rows: seq<seq<Value>>): (r: Result<RowRecord>)
    ensures r.Success? <==> |rows| > 0 && |rows[0]| == 6
    ensures |rows| == 0 ==> r == Failure(IndexError)
    ensures |rows| > 0 && |rows[0]| != 6 ==> r == Failure(ValueError)
  {
    if |rows| == 0 then Failure(IndexError)
    else
      var row := rows[0];
      if |row| != 6 then Failure(ValueError)
      else Success(RowRecord(row[0], row[3], row[4], row[5]))
  }

  /** `_gotStickies(results)`: every row on its own; the first malformed row
      fails the whole list. */
  function GotStickies(rows: seq<seq<Value>>): (r: Result<seq<RowRecord>>)
    ensures r.Success? <==> forall i :: 0 <= i < |rows| ==> |rows[i]| == 6
    ensures r.Failure? ==> r.error == ValueError
    ensures r.Success? ==>
      && |r.value| == |rows|
      && forall i :: 0 <= i < |rows| ==> GotOneRow([rows[i]]) == Success(r.value[i])
  {
    if rows == [] then Success([])
    else
      match GotOneRow([rows[0]])
      case Failure(e) => Failure(e)
      case Success(one) =>
        match GotStickies(rows[1..])
        case Failure(e) => Failure(e)
        case Success(more) =>
          assert forall i :: 1 <= i < |rows| ==> rows[i] == rows[1..][i - 1];
          Success([one] + more)
  }

  /** The row the table holds for sticky `s` on board `b`, stamped `updated`. */
  function StoredRow(b: BoardId, updated: int, s: Sticky): seq<Value> {
    [IntVal(s.id), TextVal(b), TimeVal(updated), TextVal(s.note), IntVal(s.x), IntVal(s.y)]
  }

  /** The record as a sticky, when every field has the column's type. */
  function AsSticky(r: RowRecord): Option<Sticky> {
    if r.id.IntVal? && r.note.TextVal? && r.x.IntVal? && r.y.IntVal?
    then Some(Sticky(r.id.i, r.note.t, r.x.i, r.y.i))
    else None
  }

  /** Storing a sticky and reading its row back gives the sticky, whatever
      the board and time stamp. */
  lemma RowRoundTrip(b: BoardId, updated: int, s: Sticky)
    ensures GotOneRow([StoredRow(b, updated, s)]).Success?
    ensures AsSticky(GotOneRow([StoredRow(b, updated, s)]).value) == Some(s)
  {
  }

  /** Reading back the rows of a board gives its stickies, in row order. */
  lemma StickiesRoundTrip(b: BoardId, stamps: seq<int>, ss: seq<Sticky>)
    requires |stamps| == |ss|
    ensures var rows := seq(|ss|, i requires 0 <= i < |ss| => StoredRow(b, stamps[i], ss[i]));
      && GotStickies(rows).Success?
      && |GotStickies(rows).value| == |ss|
      && forall i :: 0 <= i < |ss| ==> AsSticky(GotStickies(rows).value[i]) == Some(ss[i])
  {
    var rows := seq(|ss|, i requires 0 <= i < |ss| => StoredRow(b, stamps[i], ss[i]));
    assert forall i :: 0 <= i < |rows| ==> |rows[i]| == 6;
    forall i | 0 <= i < |ss| ensures AsSticky(GotStickies(rows).value[i]) == Some(ss[i]) {
      RowRoundTrip(b, stamps[i], ss[i]);
    }
  }
}

=== FILE: seqs.dfy ===
/** Sequence operations that mirror Python's list methods. */
module Seqs {

  /** Position of the first occurrence of `x` in `s`. */
  function IndexOf<T(==)>(s: seq<T>, x: T): (i: nat)
    requires x in s
    ensures i < |s| && s[i] == x
    ensures forall j :: 0 <= j < i ==> s[j] != x
  {
    if s[0] == x then 0 else 1 + IndexOf(s[1..], x)
  }

  /** `s` without the element at position `i`. */
  function RemoveAt<T>(s: seq<T>, i: nat): (r: seq<T>)
    requires i < |s|
    ensures |r| == |s| - 1
    ensures forall j :: 0 <= j < i ==> r[j] == s[j]
    ensures forall j :: i <= j < |r| ==> r[j] == s[j + 1]
  {
    s[..i] + s[i + 1..]
  }

  /** The first occurrence is the one with no `x` before it. */
  lemma IndexOfIsFirst<T>(s: seq<T>, x: T, i: nat)
    requires i < |s| && s[i] == x
    requires forall j :: 0 <= j < i ==> s[j] != x
    ensures IndexOf(s, x) == i
  {
    var k := IndexOf(s, x);
    assert s[k] == x;
  }

  /** Taking out position `i` takes one copy of `s[i]` out of the multiset. */
  lemma RemoveAtMultiset<T>(s: seq<T>, i: nat)
    requires i < |s|
    ensures multiset(RemoveAt(s, i)) == multiset(s) - multiset{s[i]}
  {
    assert s == s[..i] + [s[i]] + s[i + 1..];
    assert multiset(s) == multiset(s[..i]) + multiset{s[i]} + multiset(s[i + 1..]);
  }

  /** Python's `list.remove(x)`: drops the first element equal to `x`.
      The caller decides what an absent `x` means; here it leaves `s` alone. */
  function RemoveFirst<T(==)>(s: seq<T>, x: T): (r: seq<T>)
    ensures x !in s ==> r == s
    ensures x in s ==> r == RemoveAt(s, IndexOf(s, x))
    ensures x in s ==> multiset(r) == multiset(s) - multiset{x}
  {
    if x in s then
      RemoveAtMultiset(s, IndexOf(s, x));
      RemoveAt(s, IndexOf(s, x))
    else s
  }

  /** Removing an element that first occurs in the front part leaves the back part alone. */
  lemma RemoveFirstInFront<T>(a: seq<T>, b: seq<T>, x: T)
    requires x in a
    ensures RemoveFirst(a + b, x) == RemoveFirst(a, x) + b
  {
    var i := IndexOf(a, x);
    PrefixOfConcat(a, b, i);
    IndexOfIsFirst(a + b, x, i);
    assert RemoveFirst(a + b, x) == RemoveAt(a + b, i);
    assert RemoveAt(a + b, i) == RemoveAt(a, i) + b;
  }

  /** Position `i` of the front part, seen in `a + b`. */
  lemma PrefixOfConcat<T>(a: seq<T>, b: seq<T>, i: nat)
    requires i < |a|
    ensures (a + b)[i] == a[i]
    ensures forall j :: 0 <= j < i ==> (a + b)[j] == a[j]
    ensures RemoveAt(a + b, i) == RemoveAt(a, i) + b
  {
    assert (a + b)[..i] == a[..i];
    assert (a + b)[i + 1..] == a[i + 1..] + b;
  }

  /** Position `i` of the back part, seen in `a + b`. */
  lemma SuffixOfConcat<T>(a: seq<T>, b: seq<T>, i: nat)
    requires i < |b|
    ensures (a + b)[|a| + i] == b[i]
    ensures RemoveAt(a + b, |a| + i) == a + RemoveAt(b, i)
  {
    var ab := a + b;
    assert ab[..|a| + i] == a + b[..i];
    assert ab[|a| + i + 1..] == b[i + 1..];
    assert (a + b[..i]) + b[i + 1..] == a + (b[..i] + b[i + 1..]);
  }

  /** Behind a front part without `x`, the first `x` is found in the back part. */
  lemma {:induction false} IndexOfBehind<T>(a: seq<T>, b: seq<T>, x: T)
    requires x !in a && x in b
    ensures IndexOf(a + b, x) == |a| + IndexOf(b, x)
  {
    if a != [] {
      assert (a + b)[0] == a[0];
      assert (a + b)[1..] == a[1..] + b;
      assert x !in a[1..] by {
        assert forall j :: 0 <= j < |a[1..]| ==> a[1..][j] == a[j + 1];
      }
      IndexOfBehind(a[1..], b, x);
    } else {
      assert a + b == b;
    }
  }

  /** Removing an element absent from the front part only touches the back part. */
  lemma RemoveFirstBehind<T>(a: seq<T>, b: seq<T>, x: T)
    requires x !in a
    ensures RemoveFirst(a + b, x) == a + RemoveFirst(b, x)
  {
    if x in b {
      RemoveFirstBehindFound(a, b, x);
    } else {
      var ab := a + b;
      assert forall j :: 0 <= j < |ab| ==> ab[j] == if j < |a| then a[j] else b[j - |a|];
      assert x !in ab;
    }
  }

  lemma RemoveFirstBehindFound<T>(a: seq<T>, b: seq<T>, x: T)
    requires x !in a && x in b
    ensures RemoveFirst(a + b, x) == a + RemoveFirst(b, x)
  {
    var i := IndexOf(b, x);
    SuffixOfConcat(a, b, i);
    IndexOfBehind(a, b, x);
    assert RemoveFirst(a + b, x) == RemoveAt(a + b, |a| + i);
  }

  /** Every element of `s` is distinct. */
  ghost predicate Distinct<T>(s: seq<T>) {
    forall i, j :: 0 <= i < j < |s| ==> s[i] != s[j]
  }
}

=== FILE: wrappers.dfy ===
/** Failure-carrying results shared by every part of the model. */
module Wrappers {

  /** An optional value. */
  datatype Option<+T> = None | Some(value: T)

  /** The exceptions the modelled code raises, named after the Python ones. */
  datatype Error =
    | IndexError    // `[0]` on an empty list
    | ValueError    // `list.remove` of an absent element, or a row of the wrong width
    | FormatError   // a `%` directive the query formatter cannot fill

  /** Either a value or the exception that replaced it. */
  datatype Result<+T> = Success(value: T) | Failure(error: Error)
}
